=== FILE: README.md ===
# cpputil task scheduler in Dafny

This project models the task scheduler of `cpputil` and proves properties of the model. The scheduler has three parts:

- **`TaskCenter`** owns a FIFO queue of immediate tasks and a priority queue of delayed tasks. `PostTask` works from any thread. `PostDelayTask` and `Quit` reach the pump only from the thread that constructed the center, which owns the pump's window. Tasks run on the thread that calls `Run`, and the model takes that to be the same thread.
- **`MessagePump`** is the Win32 message loop on that thread. It wakes the center with a private "have task" message and a timer. `SetTimer` creates a periodic timer, but it acts once: `HandleTimerMessage` kills it before doing anything else. Two interlocked flags debounce both signals.
- **`scoped_ptr` / `scoped_array`** are the single-owner pointer wrappers.

The model is a functional state machine, split into these modules:

| module | file | what it holds |
|---|---|---|
| `PendingTasks` | `pending_task.dfy` | `PendingTask`; `operator<`; the order a `std::priority_queue` over that operator hands entries out |
| `MessagePump` | `message_pump.dfy` | the pump's flags, its message queue as a sequence, the timer, the quit state |
| `TaskCenter` | `task_center.dfy` | the two queues, the run state, and every center operation |
| `PumpLoop` | `pump_loop.dfy` | the loop functions that call back into the center; one `RunLoop` pass; `Run` over a finite schedule of events |
| `Scoped` | `scoped_ptr.dfy` | the pointer wrappers |

How the source's concepts appear in the model:

- Each call from outside the loop (`PostTask`, `PostDelayTask`, `Quit`) is one atomic step. So is each whole pass of the loop, including the task bodies it runs. The source takes several locked or interlocked steps inside each of these, and the model does not interleave threads between them.
- A task is an opaque id. Running a task appends it to an `executed` log. Deleting it appends it to a `destroyed` log.
- The `Bodies` map lists the tasks whose body calls `Quit(code)` on the center, as the demo's third task does. Every other body is modelled as having no effect the center can see. A body that posts to the center is not modelled.
- Time is a parameter `now` wherever the source reads the tick count.

The model follows the code. In five places the code behaves differently from what an earliest-deadline-first scheduler that any thread may use would do:

- **`top()` is the latest deadline, not the earliest.** The delay queue is a `std::priority_queue` over an `operator<` that compares due times, and that container is a max-heap. When no task body posts, `DoDelayTask` therefore runs the delayed tasks all or nothing. It runs none until the latest deadline has passed, however overdue the others are. Then it runs every entry, latest first. See `TaskCenter.DrainDue` and `TaskCenter.LatestDeadlineRunsFirst`.
- **The due test is strict.** An entry is handed out only when `post + delay < now`.
- **The timer is re-armed with the stored delay.** `GetNextDelayTime` returns the stored delay of `top()`, not the time left until it is due.
- **A zero-delay task can be stranded.** If its timer fires before the tick count moves on, nothing runs and nothing re-arms the timer (`PumpLoop.ZeroDelayTaskStranded`).
- **`PostDelayTask` and `Quit` are bound to the loop's thread.** `SetTimer` arms a timer only for a window of the calling thread. So a `PostDelayTask` from another thread sets `have_delay_task_` with no timer armed, and every later delayed post is debounced into nothing (`PumpLoop.ForeignDelayPostStrandsTimer`). `PostQuitMessage` queues the quit on the calling thread, so a `Quit` from another thread does not end the loop (`PumpLoop.ForeignQuitDoesNotEndLoop`).

The source calls `ScheduleDelayTask()` without the delay its declaration requires. The model passes the posted delay.

## Model

| member | source | states |
|---|---|---|
| PendingTasks.NewPending | base/task_center.h:37-40 | the entry carries the task and delay, and its due time is the posting tick plus the delay |
| PendingTasks.BeforeIsStrictWeakOrder | base/task_center.h:44-47 | `operator<` on due times is irreflexive and transitive, and incomparability is transitive: the strict weak order the priority queue needs |
| PendingTasks.Top | base/task_center.h:70 | `top()` of the max-heap is an entry of the queue whose due time no entry exceeds |
| PendingTasks.PopTop | base/task_center.h:70 | `pop()` removes exactly one copy of `top()`, and with it one copy of its task id, and nothing else |
| PendingTasks.DrainOrderPermutes | base/task_center.h:70 | repeated `top()`/`pop()` hands out every entry exactly once: a permutation of the queue and of its ids |
| PendingTasks.DrainOrderDescending | base/task_center.h:70 | repeated `top()`/`pop()` hands entries out in non-increasing due time, latest deadline first |
| MessagePump.Init | base/message_pump.hpp:12-18 | both flags clear, no task or timer message queued, the debounce invariant holds |
| MessagePump.BeginRun | base/message_pump.hpp:26-36 | `Run` clears the quit flag and the code and changes nothing else |
| MessagePump.PostQuit | base/message_pump.hpp:38-42 | `Quit` appends one quit message carrying the code and leaves the task and timer signals alone |
| MessagePump.ScheduleTask | base/message_pump.hpp:44-54 | a task message is posted exactly when `have_task_` was clear; afterwards the flag is set; a second call changes nothing; the debounce invariant is kept |
| MessagePump.ScheduleDelayTask | base/message_pump.hpp:56-66 | the timer is armed with the given delay exactly when `have_delay_task_` was clear; an armed timer keeps its delay; the debounce invariant is kept |
| MessagePump.ScheduleTaskDebounces | base/message_pump.hpp:47-50 | scheduling twice posts one task message, not two |
| MessagePump.ScheduleDelayTaskDebounces | base/message_pump.hpp:59-62 | arming twice, whatever the second delay, leaves the first arming in force |
| MessagePump.StopTimer | base/message_pump.hpp:225-226 | `KillTimer` and clearing `have_delay_task_` disarm the timer and keep the invariant once no timer message is waiting |
| MessagePump.ScheduleDelayTaskFromOtherThread | base/message_pump.hpp:56-66 | called off the loop's thread, the flag is set exactly as before but no timer is armed, which breaks the timer invariant when the flag was clear |
| MessagePump.DeliverTimer | base/message_pump.hpp:64 | an armed timer queues at most one timer message, and the debounce invariant is kept |
| MessagePump.DeliverOther | base/message_pump.hpp:172-174 | a message not meant for the scheduler joins the back of the queue and leaves the flags, the timer and the invariant alone |
| MessagePump.AddsQuitsOnlyKeepsSignals | base/message_pump.hpp:38-42 | appending only quit messages leaves the task and timer message counts and both flags unchanged |
| MessagePump.AddsQuitsOnlyTransitive | base/message_pump.hpp:38-42 | two steps that each only append quit messages together only append quit messages |
| TaskCenter.StateValue | base/task_center.h:72-77 | Default, Running and Stoped are stored as 0, 1 and 2 respectively, each value standing for exactly one state |
| TaskCenter.Init | base/task_center.hpp:11-13 | a new center is in state Default with empty queues and a fresh pump, and the invariant holds |
| TaskCenter.Started | base/task_center.hpp:30-32 | a new center once `Run` has set Running and the pump has reset its quit state: empty queues, no flags set, nothing queued, and the invariant holds |
| TaskCenter.Quit | base/task_center.hpp:39-48 | always true; a quit message is posted only while Running; nothing else changes, and the invariant is kept |
| TaskCenter.AddToTaskQueue | base/task_center.hpp:84-95 | a null task is refused with no change; otherwise exactly one entry for the task, with delay 0 and due now, joins the back of the queue |
| TaskCenter.AddToDelayTaskQueue | base/task_center.hpp:97-108 | a null task is refused with no change; otherwise exactly one entry due at now plus the delay joins the delay queue |
| TaskCenter.PostTask | base/task_center.hpp:50-65 | true exactly when not Stoped and the task is non-null; a refusal changes nothing; on success the id is appended to the queue's ids and the pump is scheduled; the invariant is kept |
| TaskCenter.PostDelayTask | base/task_center.hpp:67-82 | true exactly when not Stoped and the task is non-null; a refusal changes nothing; on success one entry joins the delay queue and the timer is armed if it was not; the invariant is kept |
| TaskCenter.PostDelayTaskFromOtherThread | base/task_center.hpp:67-82 | called off the loop's thread, accepted and refused exactly as on it, and the entry is queued, but the timer is left as it was |
| TaskCenter.QuitFromOtherThread | base/message_pump.hpp:38-42 | called off the loop's thread, the quit goes to the caller's own queue: true, and the center and its pump are unchanged |
| TaskCenter.TopOverdueIffAllOverdue | base/task_center.hpp:117-118 | `top()` is overdue exactly when every delayed entry is |
| TaskCenter.GetNextDelayTask | base/task_center.hpp:110-125 | a task is handed out exactly when the queue is non-empty and the due time of `top()` is strictly before now; it is `top()`'s task, removed exactly once; otherwise the queue is unchanged |
| TaskCenter.GetNextDelayTime | base/task_center.hpp:127-136 | 0 for an empty queue; otherwise the stored delay of an entry with the latest due time |
| TaskCenter.DiscardFront | base/task_center.hpp:159-165 | the loop deletes every immediate entry, front first |
| TaskCenter.DiscardByTop | base/task_center.hpp:179-185 | the loop deletes every delayed entry in drain order |
| TaskCenter.DiscardTasks | base/task_center.hpp:150-168 | refused while Running with no change; otherwise the queue is emptied and its ids are deleted in FIFO order; the invariant is kept |
| TaskCenter.DiscardDelayTasks | base/task_center.hpp:170-188 | refused while Running with no change; otherwise the delay queue is emptied and each of its tasks is deleted exactly once |
| TaskCenter.Destroy | base/task_center.hpp:15-20 | once not Running, both queues are emptied and every queued task is deleted exactly once and none is run |
| TaskCenter.RunTask | base/task_center.hpp:190-199 | the task runs once and is then deleted once; the queues and state do not change; the pump gains at most the quit messages the body posts |
| TaskCenter.DoTask | base/task_center.hpp:201-228 | an empty queue gives false and no change; otherwise exactly the front entry is removed, run and deleted, and the result is true exactly when entries remain |
| TaskCenter.PopKeepsOverdue | base/task_center.hpp:233-241 | after an overdue `top()` is popped, the next `top()`, if any, is overdue too |
| TaskCenter.DrainDue | base/task_center.hpp:233-241 | all or nothing: if `top()` is not overdue nothing changes; otherwise every delayed task runs and is deleted once, in drain order, and the delay queue ends empty |
| TaskCenter.DrainDueStep | base/task_center.hpp:233-241 | one pass of the loop followed by the rest of the drain runs and deletes that task and then the rest, and only appends quit messages |
| TaskCenter.DoDelayTask | base/task_center.hpp:230-251 | more work is reported exactly when a delayed entry remains and the stored delay of `top()` is positive, and that delay is reported; entries remain only if none ran |
| TaskCenter.DoIdleTask | base/task_center.hpp:253-257 | there is never idle work |
| TaskCenter.PostAll | main.cpp:53-56 | posting several tasks keeps the run state and the invariant |
| TaskCenter.PostAllAppends | base/task_center.hpp:50-65 | posting ids in turn appends exactly those ids, in order, to the immediate queue, runs nothing, and schedules the pump once however many are posted |
| TaskCenter.DoTasksRunFront | base/task_center.hpp:201-228 | `n` calls of `DoTask` run exactly the first `n` queued tasks, in queue order |
| TaskCenter.DoTasksRunAll | base/task_center.hpp:201-228 | as many `DoTask` calls as there are queued tasks run them all, in queue order, and empty the queue |
| TaskCenter.FifoOrder | base/task_center.h:69 | immediate tasks run in posting order, after whatever was already queued |
| TaskCenter.LatestDeadlineRunsFirst | base/task_center.hpp:110-125 | on a running center with entries due at 300 and 100, nothing runs at 150, and after 300 the later deadline runs first |
| PumpLoop.HandleTaskMessage | base/message_pump.hpp:212-220 | exactly one `DoTask`, and the pump is rescheduled exactly when it reports more work; the invariant is restored |
| PumpLoop.HandleTimerMessage | base/message_pump.hpp:222-234 | the timer is disarmed before `DoDelayTask` and re-armed with the reported delay exactly when it reports more work; the invariant is kept |
| PumpLoop.Dispatch | base/message_pump.hpp:90-104 | task and timer messages reach their handlers; other messages do not touch the scheduler |
| PumpLoop.ProcessWindowMessage | base/message_pump.hpp:156-175 | a quit message records its code and reports no work; a task message clears `have_task_` first; other messages report more work; the invariant holds again afterwards |
| PumpLoop.ProcessReplaceMessage | base/message_pump.hpp:177-189 | with nothing else queued the task message is dispatched; otherwise the next message is processed instead and a fresh task message is scheduled |
| PumpLoop.RescheduleKeepsConsistent | base/message_pump.hpp:177-189 | taking the next message and scheduling a new task message restores the debounce invariant |
| PumpLoop.ProcessNextWindowMessage | base/message_pump.hpp:137-154 | an empty queue reports no work with no change; otherwise the oldest message is taken off the queue and the result is `ProcessWindowMessage` of it on the rest; the state and the invariant are kept |
| PumpLoop.LoopStep | base/message_pump.hpp:106-135 | the pass exits exactly when `should_quit` is set, and goes round again exactly when there was more work |
| PumpLoop.External | base/task_center.hpp:50-82 | a post from any thread, a delayed post or quit on the loop's thread, or an arriving message runs and deletes nothing, and keeps the invariant |
| PumpLoop.IterateStep | base/message_pump.hpp:109-134 | a pass of the loop either leaves it or is followed by the rest of the schedule |
| PumpLoop.RunLoop | base/message_pump.hpp:106-135 | the loop is left only with `should_quit` set; the invariant holds throughout |
| PumpLoop.Run | base/task_center.hpp:22-37 | outside Default, 0 and no change; otherwise, once the loop ends, the state is Stoped and the pump's code is returned |
| PumpLoop.DebounceBetweenSteps | base/message_pump.h:50-51 | between steps at most one task message and one timer message are queued, and a non-empty queue always has its task message queued |
| PumpLoop.QuitMessageEndsLoop | base/message_pump.hpp:159-164 | a quit message at the front ends the pass with its code, whatever else is queued |
| PumpLoop.TaskMessageYields | base/message_pump.hpp:177-189 | a task message with another message behind it runs no task, and its replacement goes to the back |
| PumpLoop.ForeignDelayPostStrandsTimer | base/message_pump.hpp:56-66 | a delayed post from another thread while no timer is armed queues the entry and sets the flag with no timer, so the invariant fails, no timer message can arrive, and every later delayed post changes nothing in the pump |
| PumpLoop.ForeignQuitDoesNotEndLoop | base/message_pump.hpp:38-42 | with nothing queued, a `Quit` from another thread leaves the next pass blocked, while the same call on the loop's thread ends it with the code |
| PumpLoop.ZeroDelayTaskStranded | base/task_center.hpp:243-250 | on a running center, a zero-delay task whose timer fires in the same tick is not run, and the timer is left disarmed |
| PumpLoop.LoneTimerMessageNothingDue | base/message_pump.hpp:222-234 | a lone timer message with nothing overdue and no positive stored delay only disarms the timer |
| PumpLoop.LoneTaskMessageRunsFront | base/message_pump.hpp:177-189 | a task message alone in the queue runs exactly the front task, and is queued again exactly when tasks remain |
| PumpLoop.DemoRunReturnsQuitCode | main.cpp:53-57 | three tasks posted before `Run`, the third calling `Quit(3)`: they run in order and `Run` returns 3 with the state Stoped |
| Scoped.Make | base/scoped_ptr.h:14-15 | the constructor takes ownership and deletes nothing |
| Scoped.Destroy | base/scoped_ptr.h:17-22 | the destructor deletes the held object exactly once if non-null (`scoped_array` at lines 96-100 likewise) |
| Scoped.Reset | base/scoped_ptr.h:24-34 | a different pointer deletes the old object and holds the new one; the same pointer changes nothing; single ownership is kept for a fresh pointer (`scoped_array` at 102-111 likewise) |
| Scoped.Get | base/scoped_ptr.h:36-49 | returns the held pointer, which in a sound wrapper is not yet destroyed, and changes no ownership |
| Scoped.Swap | base/scoped_ptr.h:51-56 | the wrappers exchange pointers, and the objects the two are responsible for are unchanged |
| Scoped.Release | base/scoped_ptr.h:58-63 | the caller gets the held pointer, the wrapper becomes null, and nothing is deleted (`scoped_array` at 130-134 likewise) |
| Scoped.Accept | base/scoped_ptr.h:65-73 | the held object, if any, is deleted and the wrapper becomes null (`scoped_array` at 137-146 likewise) |
| Scoped.WriteSlot | base/scoped_ptr.h:75-78 | writing through the returned slot replaces the held pointer and deletes nothing |
| Scoped.AcceptThenWrite | base/scoped_ptr.h:65-73 | filling the slot `accept` returns takes ownership and loses nothing |
| Scoped.AcceptSameObjectDangles | base/scoped_ptr.h:65-73 | writing the just-deleted object back into the slot makes the destructor delete it twice |
| Scoped.UseOverwriteLeaks | base/scoped_ptr.h:75-78 | overwriting the slot `use` returns leaks the held object |
| Scoped.ResetIdempotent | base/scoped_ptr.h:28 | resetting twice to the same pointer is resetting once, and `reset(get())` changes nothing |
| Scoped.SwapInvolution | base/scoped_ptr.h:51-56 | swapping twice restores both wrappers (`scoped_array` at 123-128 likewise) |
| Scoped.LifetimeSound | base/scoped_ptr.h:17-73 | with each object handed over fresh, no sequence of reset, release and accept followed by the destructor deletes any object twice |
| Scoped.LifetimeDestroysAll | base/scoped_ptr.h:17-73 | without `release`, what the wrapper started with and every object handed to it by `reset` or through `accept` is deleted by the end of its life |

`PendingTasks.DrainOrder` and `TaskCenter.TopOverdue` are definitions without a row. `DrainOrder` is the order repeated `top()`/`pop()` hands entries out; `DrainOrderPermutes` and `DrainOrderDescending` state what it is. `TopOverdue` is the strict due test at base/task_center.hpp:118; `TopOverdueIffAllOverdue` and `GetNextDelayTask` state what it means.

## Left out

- The Win32 plumbing is not modelled: the window class, `CreateWindow`, `DefWindowProc`, `TranslateMessage`, and `WillProcessMessage`/`DidProcessMessage` (which are empty).
- Messages sent from other threads are not modelled. `GetQueueStatus` reports them and `ProcessNextWindowMessage` returns true for them, but they are outside the scheduler.
- The blocking wait `MsgWaitForMultipleObjects` is a step that does nothing. A finite schedule of `Event`s stands in for the order in which threads and the system interleave.
- Delivery order is simplified. `WM_QUIT` and `WM_TIMER` are queued in append order, though Windows synthesises them on demand. Only the count of pending timer messages matters to the properties here. Windows keeps at most one pending quit per thread and delivers it only after every posted message. The model appends one `Quit(code)` per call. So after two quits `PumpLoop.Run` returns the first code, where Windows would report the last. `PumpLoop.QuitMessageEndsLoop` also covers a quit with posted messages behind it, a queue order Windows never produces.
- The pump's window is created by the constructor of `MessagePump` (base/message_pump.hpp:17, 80) and belongs to the constructing thread. `SetTimer` and `PeekMessage(&msg, NULL, ...)` (base/message_pump.hpp:64, 148) work only with that thread's windows. The model assumes `Run` is called on the thread that constructed the center. Called on any other thread, the source's loop never sees a task or timer message and runs no task.
- Locks and interlocked operations are atomic steps. No data race in the C++ is modelled.
- TaskCenter.Consistent is an invariant of the model's coarse steps only. In the source `PostTask` is three steps: the interlocked `GetState` (base/task_center.hpp:53), the locked push (92-93) and `ScheduleTask`'s exchange (base/message_pump.hpp:47). `DoTask` has three locked sections (base/task_center.hpp:205-226) around the task body. The model lets no post land between a push and its `ScheduleTask`, or between `DoTask`'s pop and its final emptiness check.
- PumpLoop.External: its `PostDelay` and `CallQuit` events stand for calls on the thread that owns the pump's window. The same calls from other threads are `TaskCenter.PostDelayTaskFromOtherThread` and `TaskCenter.QuitFromOtherThread`. They break or bypass the loop, so `RunLoop`'s schedule does not include them, and its invariant holds only for schedules whose other threads use `PostTask` alone.
- Tick counts and `int` arithmetic are unbounded integers. The 32-bit wrap-around of `GetTickCount` and overflow of `post + delay` are not modelled.
- The singleton (`base/singleton.h`), the lock classes (`base/locker.h`) and the task closures (`base/task.h`) are not part of this model. A task is an id, and its body is an entry in `Bodies` or nothing. A body that calls `PostTask` or `PostDelayTask` is not modelled. Such a body would falsify `TaskCenter.DoTask`'s claim that only the front entry leaves the queue. A delayed body that posts a later-due delayed task would make it the new `top()` and stop the drain, so `TaskCenter.DrainDue`'s "delay queue ends empty" assumes no body posts. A body that runs a nested message loop (`MessageBox`, a modal dialog) is not modelled either. Such a loop dispatches `kMsgHaveTask` through `WndProcThunk` (base/message_pump.hpp:95-96) without `ProcessWindowMessage` clearing `have_task_` (line 168). The flag then stays set with no message queued, and no later `PostTask` wakes the loop. The debounce invariant assumes no nested dispatch.
- Each `DoDelayTask` call reads the clock once, as `now`. The source re-reads it on every `GetNextDelayTask`.
- PendingTasks.Top: among entries with equal due times, the model picks the first inserted. `std::priority_queue` leaves the choice to the heap layout. `PendingTasks.Top`, `TaskCenter.GetNextDelayTime` and `TaskCenter.TopOverdueIffAllOverdue` speak only of maximality. `TaskCenter.GetNextDelayTask`, `TaskCenter.DoDelayTask`, `TaskCenter.DrainDue`, `TaskCenter.DiscardByTop` and `TaskCenter.DiscardDelayTasks` name `Top` or `DrainOrder` and so rely on the tie-break. For two entries due at the same tick but with different stored delays, which task runs first and which delay `DoDelayTask` reports can differ in the source.
- `scoped_array::operator[]` is not modelled: an array element access says nothing about ownership.
- PumpLoop.ProcessWindowMessage requires that no other task message is queued. The debounce invariant guarantees this, and the recursion through `ProcessReplaceMessage` ends only because of it.
- PumpLoop.RunLoop requires the center's invariant, which `Init` establishes and every event of the schedule keeps. `TaskCenter.PostDelayTaskFromOtherThread` breaks it, so `PumpLoop.Run` is not modelled from a state it left behind. The source's `Run` accepts that state and still runs the immediate tasks.
- PumpLoop.Run returns `None` when the schedule runs out before the loop exits, whether the last pass blocked or went round again with work pending. The source would wait for ever.
- TaskCenter.PostDelayTask passes the posted delay to `ScheduleDelayTask`. The source's call gives no argument, which does not match the declaration.

=== FILE: message_pump.dfy ===
/** The control state of the message pump (`MessagePump` in
    base/message_pump.h): the thread's message queue seen as a plain sequence,
    the two debounce flags, the pump's timer (killed on every delivery), and
    the quit state of `Run`.
    The window, `PostMessage`, `SetTimer` and `KillTimer` are reduced to their
    effect on that state. */
module MessagePump {

  /** The messages the pump tells apart: `WM_QUIT` with its `wParam`, the
      private `kMsgHaveTask` posted to the pump's own window, `WM_TIMER` from
      the pump's timer, and anything else the thread receives. */
  datatype Msg = Quit(code: int) | HaveTask | Timer | Other

  /** The pump's timer; `SetTimer` replaces the delay of an armed timer. */
  datatype TimerState = Disarmed | Armed(delay: int)

  datatype Pump = Pump(
    msgs: seq<Msg>,        // the thread's message queue, oldest first
    haveTask: bool,        // `have_task_`
    haveDelayTask: bool,   // `have_delay_task_`
    timer: TimerState,
    shouldQuit: bool,      // `state_.should_quit`
    code: int              // `state_.code`
  )

  /** The number of `m` messages waiting in the queue. */
  function Pending(p: Pump, m: Msg): nat
  {
    multiset(p.msgs)[m]
  }

  /** Debounce for the immediate queue: exactly one `kMsgHaveTask` is queued
      while `have_task_` is set, and none while it is clear. */
  predicate TaskSignal(p: Pump)
  {
    Pending(p, HaveTask) == if p.haveTask then 1 else 0
  }

  /** Debounce for the delay queue: `have_delay_task_` is set exactly while the
      timer is armed, and at most one `WM_TIMER` waits, only for an armed timer. */
  predicate TimerSignal(p: Pump)
  {
    && (p.haveDelayTask <==> p.timer.Armed?)
    && Pending(p, Timer) <= if p.timer.Armed? then 1 else 0
  }

  predicate Signalled(p: Pump)
  {
    TaskSignal(p) && TimerSignal(p)
  }

  /** The constructor: both flags clear, nothing queued, no timer. */
  function Init(): (p: Pump)
    ensures !p.haveTask && !p.haveDelayTask && !p.timer.Armed?
    ensures Pending(p, HaveTask) == 0 && Pending(p, Timer) == 0
    ensures Signalled(p)
  {
    Pump([], false, false, Disarmed, false, 0)
  }

  /** `Run`'s reset before entering the loop. */
  function BeginRun(p: Pump): (r: Pump)
    ensures !r.shouldQuit && r.code == 0
    ensures r.msgs == p.msgs && r.haveTask == p.haveTask
    ensures r.haveDelayTask == p.haveDelayTask && r.timer == p.timer
  {
    p.(shouldQuit := false, code := 0)
  }

  /** `Quit`: `PostQuitMessage(code)` queues a quit message carrying the code. */
  function PostQuit(p: Pump, code: int): (r: Pump)
    ensures r.msgs == p.msgs + [Quit(code)]
    ensures r == p.(msgs := r.msgs)
    ensures Pending(r, HaveTask) == Pending(p, HaveTask)
    ensures Pending(r, Timer) == Pending(p, Timer)
  {
    p.(msgs := p.msgs + [Quit(code)])
  }

  /** `ScheduleTask`: exchange `have_task_` with 1 and post a task message only
      when it was 0.  The result says whether a message was posted. */
  function ScheduleTask(p: Pump): (r: (Pump, bool))
    ensures r.0.haveTask
    ensures r.1 <==> !p.haveTask
    ensures r.1 ==> r.0.msgs == p.msgs + [HaveTask]
    ensures !r.1 ==> r.0 == p
    ensures r.0 == p.(haveTask := true, msgs := r.0.msgs)
    ensures Pending(r.0, Timer) == Pending(p, Timer)
    ensures TaskSignal(p) ==> TaskSignal(r.0)
    ensures TimerSignal(p) ==> TimerSignal(r.0)
  {
    if p.haveTask then (p, false)
    else (p.(haveTask := true, msgs := p.msgs + [HaveTask]), true)
  }

  /** `ScheduleDelayTask(delay)`: exchange `have_delay_task_` with 1 and arm the
      timer with `delay` only when it was 0.  The result says whether it armed. */
  function ScheduleDelayTask(p: Pump, delay: int): (r: (Pump, bool))
    ensures r.1 <==> !p.haveDelayTask
    ensures r.1 ==> r.0.timer == Armed(delay) && r.0.msgs == p.msgs
    ensures !r.1 ==> r.0 == p
    ensures r.0.haveDelayTask
    ensures r.0 == p.(haveDelayTask := true, timer := r.0.timer)
    ensures TaskSignal(p) ==> TaskSignal(r.0)
    ensures TimerSignal(p) ==> TimerSignal(r.0)
  {
    if p.haveDelayTask then (p, false)
    else (p.(haveDelayTask := true, timer := Armed(delay)), true)
  }

  /** `ScheduleDelayTask` called on a thread that does not own the message
      window: the exchange sets `have_delay_task_` as on the loop's thread,
      but `SetTimer` arms timers only for windows of the calling thread, so
      no timer is armed and the result is ignored. */
  function ScheduleDelayTaskFromOtherThread(p: Pump): (r: (Pump, bool))
    ensures r.1 <==> !p.haveDelayTask
    ensures r.0.haveDelayTask && r.0.timer == p.timer && r.0.msgs == p.msgs
    ensures r.0 == p.(haveDelayTask := true)
    ensures !p.haveDelayTask && TimerSignal(p) ==> !TimerSignal(r.0)
  {
    (p.(haveDelayTask := true), !p.haveDelayTask)
  }

  /** The first half of `HandleTimerMessage`: `KillTimer` and clear
      `have_delay_task_`, leaving the queue alone. */
  function StopTimer(p: Pump): (r: Pump)
    ensures !r.haveDelayTask && r.timer == Disarmed
    ensures r == p.(haveDelayTask := false, timer := Disarmed)
    ensures TaskSignal(p) ==> TaskSignal(r)
    ensures Pending(p, Timer) == 0 ==> TimerSignal(r)
  {
    p.(haveDelayTask := false, timer := Disarmed)
  }

  /** An external step: the armed timer elapses and the system queues one
      `WM_TIMER`, unless one is already waiting. */
  function DeliverTimer(p: Pump): (r: Pump)
    ensures p.timer.Armed? && Pending(p, Timer) == 0 ==> r.msgs == p.msgs + [Timer]
    ensures !(p.timer.Armed? && Pending(p, Timer) == 0) ==> r == p
    ensures r == p.(msgs := r.msgs)
    ensures Signalled(p) ==> Signalled(r)
  {
    if p.timer.Armed? && Pending(p, Timer) == 0 then p.(msgs := p.msgs + [Timer]) else p
  }

  /** An external step: some other message arrives on the thread. */
  function DeliverOther(p: Pump): (r: Pump)
    ensures r.msgs == p.msgs + [Other]
    ensures r == p.(msgs := r.msgs)
    ensures Signalled(p) ==> Signalled(r)
  {
    p.(msgs := p.msgs + [Other])
  }

  /** Debounce: a second `ScheduleTask` before the loop has cleared the flag
      posts nothing and changes nothing. */
  lemma ScheduleTaskDebounces(p: Pump)
    ensures var q := ScheduleTask(p).0; ScheduleTask(q) == (q, false)
  {
  }

  /** Debounce: a second `ScheduleDelayTask`, whatever its delay, neither re-arms
      nor changes the delay of the armed timer. */
  lemma ScheduleDelayTaskDebounces(p: Pump, d1: int, d2: int)
    ensures var q := ScheduleDelayTask(p, d1).0; ScheduleDelayTask(q, d2) == (q, false)
  {
  }

  /** Only `HaveTask`/`Timer`/`Quit` messages and the flags matter to the
      debounce invariant, so adding quit messages keeps it. */
  predicate AddsQuitsOnly(p: Pump, r: Pump)
  {
    && r == p.(msgs := r.msgs)
    && |p.msgs| <= |r.msgs|
    && r.msgs[..|p.msgs|] == p.msgs
    && forall i :: |p.msgs| <= i < |r.msgs| ==> r.msgs[i].Quit?
  }

  lemma AddsQuitsOnlyKeepsSignals(p: Pump, r: Pump)
    requires AddsQuitsOnly(p, r)
    ensures Pending(r, HaveTask) == Pending(p, HaveTask)
    ensures Pending(r, Timer) == Pending(p, Timer)
    ensures r.haveTask == p.haveTask && r.haveDelayTask == p.haveDelayTask
    ensures r.timer == p.timer
    ensures Signalled(p) <==> Signalled(r)
  {
    var extra := r.msgs[|p.msgs|..];
    assert r.msgs == p.msgs + extra;
    assert HaveTask !in extra;
    assert Timer !in extra;
  }

  lemma AddsQuitsOnlyReflexive(p: Pump)
    ensures AddsQuitsOnly(p, p)
  {
    assert p.msgs[..|p.msgs|] == p.msgs;
  }

  lemma AddsQuitsOnlyTransitive(p: Pump, q: Pump, r: Pump)
    requires AddsQuitsOnly(p, q) && AddsQuitsOnly(q, r)
    ensures AddsQuitsOnly(p, r)
  {
    assert r.msgs[..|p.msgs|] == r.msgs[..|q.msgs|][..|p.msgs|];
  }
}

=== FILE: pending_task.dfy ===
/** The entries held by the task center's two queues (`PendingTask` in
    base/task_center.h), the order `operator<` puts on them, and the order in
    which a `std::priority_queue` over that `operator<` hands them out. */
module PendingTasks {

  /** A task is opaque to the scheduler: only its identity is observable. */
  type TaskId = nat

  /** A queued task, the tick count at which it was posted and the delay it
      asked for.  Ticks and delays are unbounded integers in this model. */
  datatype PendingTask = PendingTask(task: TaskId, post: int, delay: int)

  /** The tick count at which the entry becomes due. */
  function Due(p: PendingTask): int
  {
    p.post + p.delay
  }

  /** The two-argument constructor: the post time is sampled once, from `now`,
      so the due time is fixed when the entry is built. */
  function NewPending(task: TaskId, delay: int, now: int): (p: PendingTask)
    ensures p.task == task && p.delay == delay
    ensures Due(p) == now + delay
  {
    PendingTask(task, now, delay)
  }

  /** `operator<`: compares due times and nothing else. */
  predicate Before(a: PendingTask, b: PendingTask)
  {
    Due(a) < Due(b)
  }

  /** `operator<` is a strict weak order, as `std::priority_queue` demands:
      irreflexive, transitive, and with a transitive incomparability. */
  lemma BeforeIsStrictWeakOrder()
    ensures forall a :: !Before(a, a)
    ensures forall a, b, c :: Before(a, b) && Before(b, c) ==> Before(a, c)
    ensures forall a, b, c ::
              !Before(a, b) && !Before(b, a) && !Before(b, c) && !Before(c, b)
              ==> !Before(a, c) && !Before(c, a)
  {
  }

  /** The task ids of a queue, front to back. */
  function Ids(q: seq<PendingTask>): (ids: seq<TaskId>)
    ensures |ids| == |q|
  {
    if q == [] then [] else [q[0].task] + Ids(q[1..])
  }

  lemma {:induction false} IdsAppend(a: seq<PendingTask>, b: seq<PendingTask>)
    ensures Ids(a + b) == Ids(a) + Ids(b)
    decreases |a|
  {
    if a != [] {
      assert (a + b)[1..] == a[1..] + b;
      IdsAppend(a[1..], b);
      assert Ids(a + b) == [a[0].task] + Ids(a[1..] + b);
      assert Ids(a) == [a[0].task] + Ids(a[1..]);
    } else {
      assert a + b == b;
    }
  }

  lemma {:induction false} IdsAt(q: seq<PendingTask>, i: nat)
    requires i < |q|
    ensures Ids(q)[i] == q[i].task
    decreases i
  {
    if i > 0 {
      IdsAt(q[1..], i - 1);
    }
  }

  /** Every entry of `s` is due no later than the one before it. */
  ghost predicate Descending(s: seq<PendingTask>)
  {
    forall i, j :: 0 <= i < j < |s| ==> Due(s[j]) <= Due(s[i])
  }

  /** Where `top()` of the max-heap sits: an entry whose due time no other entry
      exceeds.  Among entries with equal due times the model picks the earliest
      inserted one; the library leaves that choice to the heap's layout. */
  function TopIndex(q: seq<PendingTask>): (i: nat)
    requires |q| > 0
    ensures i < |q|
    ensures forall j :: 0 <= j < |q| ==> Due(q[j]) <= Due(q[i])
    ensures forall j :: 0 <= j < i ==> Due(q[j]) < Due(q[i])
  {
    if |q| == 1 then 0
    else
      var k := 1 + TopIndex(q[1..]);
      if Due(q[0]) < Due(q[k]) then k else 0
  }

  /** `top()`: an entry with the LATEST due time in the queue. */
  function Top(q: seq<PendingTask>): (t: PendingTask)
    requires |q| > 0
    ensures t in q
    ensures forall p :: p in q ==> Due(p) <= Due(t)
  {
    q[TopIndex(q)]
  }

  /** `pop()`: removes exactly one occurrence of `top()` and nothing else. */
  function PopTop(q: seq<PendingTask>): (r: seq<PendingTask>)
    requires |q| > 0
    ensures |r| == |q| - 1
    ensures multiset(r) + multiset{Top(q)} == multiset(q)
    ensures multiset(Ids(r)) + multiset{Top(q).task} == multiset(Ids(q))
  {
    var i := TopIndex(q);
    assert q == q[..i] + [q[i]] + q[i + 1..];
    IdsAppend(q[..i], [q[i]]);
    IdsAppend(q[..i] + [q[i]], q[i + 1..]);
    IdsAppend(q[..i], q[i + 1..]);
    q[..i] + q[i + 1..]
  }

  /** The order in which repeated `top()`/`pop()` hands the entries out. */
  function DrainOrder(q: seq<PendingTask>): seq<PendingTask>
    decreases |q|
  {
    if |q| == 0 then [] else [Top(q)] + DrainOrder(PopTop(q))
  }

  /** One step of draining, seen through the task ids. */
  lemma DrainOrderIdsStep(q: seq<PendingTask>)
    requires |q| > 0
    ensures Ids(DrainOrder(q)) == [Top(q).task] + Ids(DrainOrder(PopTop(q)))
  {
    assert DrainOrder(q) == [Top(q)] + DrainOrder(PopTop(q));
    IdsAppend([Top(q)], DrainOrder(PopTop(q)));
    assert Ids([Top(q)]) == [Top(q).task];
  }

  /** Draining the heap hands out every entry exactly once. */
  lemma {:induction false} DrainOrderPermutes(q: seq<PendingTask>)
    ensures multiset(DrainOrder(q)) == multiset(q)
    ensures multiset(Ids(DrainOrder(q))) == multiset(Ids(q))
    decreases |q|
  {
    if |q| > 0 {
      var rest := PopTop(q);
      DrainOrderPermutes(rest);
      assert DrainOrder(q) == [Top(q)] + DrainOrder(rest);
      ConsPermutes(Top(q), rest, DrainOrder(rest), q);
      DrainOrderIdsStep(q);
      ConsPermutes(Top(q).task, Ids(rest), Ids(DrainOrder(rest)), Ids(q));
    }
  }

  /** Putting `t` in front of a permutation of `rest` gives a permutation of
      any sequence that is `rest` plus one `t`. */
  lemma ConsPermutes<X>(t: X, rest: seq<X>, d: seq<X>, whole: seq<X>)
    requires multiset(d) == multiset(rest)
    requires multiset(rest) + multiset{t} == multiset(whole)
    ensures multiset([t] + d) == multiset(whole)
  {
    assert multiset([t] + d) == multiset([t]) + multiset(d);
  }

  /** Whatever draining hands out after `top()` is due no later than `top()`. */
  lemma DrainTailBelowTop(q: seq<PendingTask>, p: PendingTask)
    requires |q| > 0
    requires p in DrainOrder(PopTop(q))
    ensures Due(p) <= Due(Top(q))
  {
    DrainOrderPermutes(PopTop(q));
    assert p in multiset(DrainOrder(PopTop(q)));
    assert p in multiset(q);
  }

  /** Draining the heap hands the entries out latest deadline first. */
  lemma {:induction false} DrainOrderDescending(q: seq<PendingTask>)
    ensures Descending(DrainOrder(q))
    decreases |q|
  {
    if |q| > 0 {
      var tail := DrainOrder(PopTop(q));
      DrainOrderDescending(PopTop(q));
      forall p | p in tail
        ensures Due(p) <= Due(Top(q))
      {
        DrainTailBelowTop(q, p);
      }
      ConsDescending(Top(q), tail);
      assert DrainOrder(q) == [Top(q)] + tail;
    }
  }

  /** An entry due no earlier than everything in a descending sequence can go
      in front of it. */
  lemma ConsDescending(t: PendingTask, tail: seq<PendingTask>)
    requires Descending(tail)
    requires forall p :: p in tail ==> Due(p) <= Due(t)
    ensures Descending([t] + tail)
  {
    var d := [t] + tail;
    forall i, j | 0 <= i < j < |d|
      ensures Due(d[j]) <= Due(d[i])
    {
      assert d[j] == tail[j - 1];
      if i > 0 {
        assert d[i] == tail[i - 1];
      }
    }
  }
}

=== FILE: pump_loop.dfy ===
/** The pump's loop (base/message_pump.hpp) driving the task center it was
    instantiated with: dispatching the pump's own messages back into the
    center's `DoTask`/`DoDelayTask` hooks, one `RunLoop` pass as a step
    function, and `TaskCenter::Run` over a finite schedule of steps. */
module PumpLoop {
  import opened Wrappers
  import opened PendingTasks
  import MessagePump
  import opened TaskCenter

  /** The center as it was before `m` was taken off the front of the queue. */
  function Requeued(c: Center, m: MessagePump.Msg): Center
  {
    c.(pump := c.pump.(msgs := [m] + c.pump.msgs))
  }

  /** `HandleTaskMessage`: exactly one `DoTask`, then `ScheduleTask` if and only
      if it reported more work.  Entered with `have_task_` already cleared, it
      re-establishes the center's invariant. */
  function HandleTaskMessage(c: Center, bodies: Bodies): (r: Center)
    ensures var (done, more) := DoTask(c, bodies);
            && r == done.(pump := r.pump)
            && (more ==> r.pump == MessagePump.ScheduleTask(done.pump).0)
            && (!more ==> r.pump == done.pump)
    ensures MessagePump.Signalled(c.pump) && !c.pump.haveTask ==> Consistent(r)
  {
    var (done, more) := DoTask(c, bodies);
    MessagePump.AddsQuitsOnlyKeepsSignals(c.pump, done.pump);
    if more then done.(pump := MessagePump.ScheduleTask(done.pump).0) else done
  }

  /** `HandleTimerMessage`: kill the timer and clear `have_delay_task_` first,
      then `DoDelayTask`, then re-arm with the reported delay if and only if
      it reported more work. */
  function HandleTimerMessage(c: Center, now: int, bodies: Bodies): (r: Center)
    ensures var (done, next) := DoDelayTask(c.(pump := MessagePump.StopTimer(c.pump)), now, bodies);
            && r == done.(pump := r.pump)
            && (next.Some? ==> r.pump.haveDelayTask && r.pump.timer == MessagePump.Armed(next.value))
            && (next.None? ==> !r.pump.haveDelayTask && r.pump.timer == MessagePump.Disarmed)
            && r.pump == done.pump.(haveDelayTask := r.pump.haveDelayTask, timer := r.pump.timer)
    ensures Consistent(c) && MessagePump.Pending(c.pump, MessagePump.Timer) == 0 ==> Consistent(r)
  {
    var stopped := c.(pump := MessagePump.StopTimer(c.pump));
    var (done, next) := DoDelayTask(stopped, now, bodies);
    MessagePump.AddsQuitsOnlyKeepsSignals(stopped.pump, done.pump);
    if next.Some? then done.(pump := MessagePump.ScheduleDelayTask(done.pump, next.value).0)
    else done
  }

  /** `DispatchWindowMessage` and the window procedure: the pump's own task
      and timer messages reach their handlers; anything else has no effect on
      the scheduler. */
  function Dispatch(c: Center, m: MessagePump.Msg, now: int, bodies: Bodies): (r: Center)
    ensures m.HaveTask? ==> r == HandleTaskMessage(c, bodies)
    ensures m.Timer? ==> r == HandleTimerMessage(c, now, bodies)
    ensures m.Quit? || m.Other? ==> r == c
  {
    match m
    case HaveTask => HandleTaskMessage(c, bodies)
    case Timer => HandleTimerMessage(c, now, bodies)
    case _ => c
  }

  /** `ProcessWindowMessage` for a message `m` already taken off the queue.
      A quit message sets `should_quit` and the code and reports no more work;
      a task message clears `have_task_` before anything else and is handed to
      `ProcessReplaceMessage`; anything else is dispatched and reports more
      work.  The recursion through `ProcessReplaceMessage` ends because at
      most one task message is ever queued. */
  function ProcessWindowMessage(c: Center, m: MessagePump.Msg, now: int, bodies: Bodies): (r: (Center, bool))
    requires m.HaveTask? ==> MessagePump.Pending(c.pump, MessagePump.HaveTask) == 0
    ensures m.Quit? ==> r == (c.(pump := c.pump.(shouldQuit := true, code := m.code)), false)
    ensures m.HaveTask? ==> r == ProcessReplaceMessage(c.(pump := c.pump.(haveTask := false)), m, now, bodies)
    ensures m.Timer? ==> r == (HandleTimerMessage(c, now, bodies), true)
    ensures m.Other? ==> r == (c, true)
    ensures r.0.state == c.state
    ensures Consistent(Requeued(c, m)) ==> Consistent(r.0)
    decreases if m.HaveTask? then 1 else 0, 1
  {
    RequeuedConsistent(c, m);
    match m
    case Quit(code) =>
      (c.(pump := c.pump.(shouldQuit := true, code := code)), false)
    case HaveTask =>
      ProcessReplaceMessage(c.(pump := c.pump.(haveTask := false)), m, now, bodies)
    case Timer =>
      (HandleTimerMessage(c, now, bodies), true)
    case Other =>
      (c, true)
  }

  /** What the invariant of the center with `m` still queued says about the
      center once `m` has been taken off. */
  lemma RequeuedConsistent(c: Center, m: MessagePump.Msg)
    ensures Consistent(Requeued(c, m)) && !m.HaveTask? ==> Consistent(c)
    ensures Consistent(Requeued(c, m)) && m.Timer? ==> MessagePump.Pending(c.pump, MessagePump.Timer) == 0
    ensures Consistent(Requeued(c, m)) && m.HaveTask? ==> MessagePump.Signalled(c.pump.(haveTask := false))
  {
    RequeuedPending(c, m);
  }

  /** Putting `m` back at the front adds one `m` to the queue and nothing else. */
  lemma RequeuedPending(c: Center, m: MessagePump.Msg)
    ensures var p := Requeued(c, m).pump;
            && MessagePump.Pending(p, MessagePump.HaveTask)
               == MessagePump.Pending(c.pump, MessagePump.HaveTask) + (if m.HaveTask? then 1 else 0)
            && MessagePump.Pending(p, MessagePump.Timer)
               == MessagePump.Pending(c.pump, MessagePump.Timer) + (if m.Timer? then 1 else 0)
  {
    assert multiset(Requeued(c, m).pump.msgs) == multiset{m} + multiset(c.pump.msgs);
  }

  /** `ProcessReplaceMessage` for the task message `m`: when nothing else is
      queued the task message is dispatched and no more work is reported;
      otherwise the next message is taken instead, a fresh task message is
      scheduled, and the next message is processed. */
  function ProcessReplaceMessage(c: Center, m: MessagePump.Msg, now: int, bodies: Bodies): (r: (Center, bool))
    requires MessagePump.Pending(c.pump, MessagePump.HaveTask) == 0
    ensures c.pump.msgs == [] ==> r == (Dispatch(c, m, now, bodies), false)
    ensures c.pump.msgs != [] ==>
              var next := c.pump.msgs[0];
              var popped := c.pump.(msgs := c.pump.msgs[1..]);
              r == ProcessWindowMessage(c.(pump := MessagePump.ScheduleTask(popped).0), next, now, bodies)
    ensures r.0.state == c.state
    ensures m.HaveTask? && MessagePump.Signalled(c.pump) && !c.pump.haveTask ==> Consistent(r.0)
    decreases 1, 0
  {
    if c.pump.msgs == [] then
      (Dispatch(c, m, now, bodies), false)
    else
      var next := c.pump.msgs[0];
      var popped := c.pump.(msgs := c.pump.msgs[1..]);
      assert c.pump.msgs == [next] + popped.msgs;
      var scheduled := c.(pump := MessagePump.ScheduleTask(popped).0);
      RescheduleKeepsConsistent(c);
      ProcessWindowMessage(scheduled, next, now, bodies)
  }

  /** Taking the next message and scheduling a fresh task message restores
      the invariant that clearing `have_task_` had suspended. */
  lemma RescheduleKeepsConsistent(c: Center)
    requires c.pump.msgs != []
    ensures var popped := c.pump.(msgs := c.pump.msgs[1..]);
            var scheduled := c.(pump := MessagePump.ScheduleTask(popped).0);
            MessagePump.Signalled(c.pump) && !c.pump.haveTask ==> Consistent(Requeued(scheduled, c.pump.msgs[0]))
  {
    var popped := c.pump.(msgs := c.pump.msgs[1..]);
    var scheduled := c.(pump := MessagePump.ScheduleTask(popped).0);
    if MessagePump.Signalled(c.pump) && !c.pump.haveTask {
      var back := Requeued(scheduled, c.pump.msgs[0]);
      assert back.pump.msgs == c.pump.msgs + [MessagePump.HaveTask];
      assert multiset(back.pump.msgs) == multiset(c.pump.msgs) + multiset{MessagePump.HaveTask};
      assert back.pump == c.pump.(msgs := back.pump.msgs, haveTask := true);
    }
  }

  /** `ProcessNextWindowMessage`: take the oldest message, if any, and process
      it; with nothing queued there is no more work.  (Messages sent from other
      threads, which `GetQueueStatus` reports, are not modelled.) */
  function ProcessNextWindowMessage(c: Center, now: int, bodies: Bodies): (r: (Center, bool))
    requires MessagePump.Pending(c.pump, MessagePump.HaveTask) <= 1
    ensures c.pump.msgs == [] ==> r == (c, false)
    ensures c.pump.msgs != [] ==>
              && c.pump.msgs == [c.pump.msgs[0]] + c.pump.msgs[1..]
              && r == ProcessWindowMessage(c.(pump := c.pump.(msgs := c.pump.msgs[1..])), c.pump.msgs[0], now, bodies)
    ensures r.0.state == c.state
    ensures Consistent(c) ==> Consistent(r.0)
  {
    if c.pump.msgs == [] then (c, false)
    else
      var m := c.pump.msgs[0];
      var rest := c.(pump := c.pump.(msgs := c.pump.msgs[1..]));
      assert c.pump.msgs == [m] + rest.pump.msgs;
      assert Requeued(rest, m) == c;
      ProcessWindowMessage(rest, m, now, bodies)
  }

  /** How one pass of `RunLoop` ends: leave the loop, go round again at once,
      or block in the wait (a no-op step here). */
  datatype Outcome = Exit | Again | Block

  /** One pass of `RunLoop`: process the next message; stop if `should_quit`
      is now set; go round again if there was more work; otherwise ask
      `DoIdleTask` (which never has any) and block until something arrives. */
  function LoopStep(c: Center, now: int, bodies: Bodies): (r: (Center, Outcome))
    requires MessagePump.Pending(c.pump, MessagePump.HaveTask) <= 1
    ensures r.1 == Exit <==> r.0.pump.shouldQuit
    ensures r.0 == ProcessNextWindowMessage(c, now, bodies).0
    ensures r.1 == Again <==> !r.0.pump.shouldQuit && ProcessNextWindowMessage(c, now, bodies).1
    ensures r.0.state == c.state
    ensures Consistent(c) ==> Consistent(r.0)
  {
    var (c1, more) := ProcessNextWindowMessage(c, now, bodies);
    if c1.pump.shouldQuit then (c1, Exit)
    else if more then (c1, Again)
    else if DoIdleTask(c1) then (c1, Again)
    else (c1, Block)
  }

  /** What can happen while the loop runs: a pass of the loop at tick `now`,
      or a step from outside it.  `PostTask` works from any thread, because
      `PostMessage` reaches another thread's window; `PostDelayTask` and `Quit`
      reach the pump only from the thread that owns its window (`SetTimer`,
      `PostQuitMessage`), so the schedule issues them on that thread.  Their
      effect from other threads is `PostDelayTaskFromOtherThread` and
      `QuitFromOtherThread`, outside this schedule. */
  datatype Event =
    | Iterate(now: int)                                   // one pass of `RunLoop`
    | Post(task: Option<TaskId>, now: int)                // `PostTask` from any thread
    | PostDelay(task: Option<TaskId>, delay: int, now: int) // `PostDelayTask` on the loop's thread
    | CallQuit(code: int)                                 // `Quit` on the loop's thread
    | TimerElapses                                        // the armed timer fires
    | OtherMessage                                        // a foreign message arrives

  /** A step taken outside the loop: it runs and deletes nothing and leaves the
      run state alone. */
  function External(c: Center, e: Event): (r: Center)
    requires !e.Iterate?
    ensures r.state == c.state && r.executed == c.executed && r.destroyed == c.destroyed
    ensures Consistent(c) ==> Consistent(r)
  {
    match e
    case Post(task, now) => PostTask(c, task, now).0
    case PostDelay(task, delay, now) => PostDelayTask(c, task, delay, now).0
    case CallQuit(code) => Quit(c, code).0
    case TimerElapses => c.(pump := MessagePump.DeliverTimer(c.pump))
    case OtherMessage => c.(pump := MessagePump.DeliverOther(c.pump))
  }

  /** `RunLoop` over a finite schedule: the boolean says whether the loop was
      left (a pass ended with `should_quit` set) before the schedule ran out. */
  function RunLoop(c: Center, events: seq<Event>, bodies: Bodies): (r: (Center, bool))
    requires Consistent(c)
    ensures Consistent(r.0)
    ensures r.1 ==> r.0.pump.shouldQuit
    ensures r.0.state == c.state
    decreases |events|
  {
    if events == [] then (c, false)
    else
      match events[0]
      case Iterate(now) =>
        var (c1, outcome) := LoopStep(c, now, bodies);
        if outcome == Exit then (c1, true) else RunLoop(c1, events[1..], bodies)
      case _ =>
        RunLoop(External(c, events[0]), events[1..], bodies)
  }

  /** `TaskCenter::Run`: only from Default, and otherwise 0 with nothing
      changed.  From Default the state becomes Running, the pump resets its
      quit flag and code and loops; when the loop ends the state becomes Stoped
      and the pump's code is returned.  `None` means the schedule ran out while
      `Run` was still blocked in the loop. */
  function Run(c: Center, events: seq<Event>, bodies: Bodies): (r: (Center, Option<int>))
    requires Consistent(c)
    ensures c.state != Default ==> r == (c, Some(0))
    ensures c.state == Default && r.1.Some? ==>
              && r.0.state == Stoped && StateValue(r.0.state) == 2
              && r.0.pump.shouldQuit && r.1.value == r.0.pump.code
    ensures c.state == Default && r.1.None? ==> r.0.state == Running
    ensures Consistent(r.0)
  {
    if c.state != Default then (c, Some(0))
    else
      var running := c.(state := Running, pump := MessagePump.BeginRun(c.pump));
      var (looped, ended) := RunLoop(running, events, bodies);
      if ended then (looped.(state := Stoped), Some(looped.pump.code))
      else (looped, None)
  }

  // ---------------------------------------------------------------------------
  // Properties of the loop

  /** Between steps at most one task message and at most one timer message are
      queued, and a non-empty immediate queue always has its task message on
      the way: no wake-up is lost and none is duplicated. */
  lemma DebounceBetweenSteps(c: Center)
    requires Consistent(c)
    ensures MessagePump.Pending(c.pump, MessagePump.HaveTask) <= 1
    ensures MessagePump.Pending(c.pump, MessagePump.Timer) <= 1
    ensures c.tasks != [] ==> MessagePump.HaveTask in c.pump.msgs
  {
    if c.tasks != [] {
      assert MessagePump.HaveTask in multiset(c.pump.msgs);
    }
  }

  /** A quit message at the front of the queue ends the pass with the message's
      code recorded, whatever else is queued. */
  lemma QuitMessageEndsLoop(c: Center, code: int, now: int, bodies: Bodies)
    requires MessagePump.Pending(c.pump, MessagePump.HaveTask) <= 1
    requires c.pump.msgs != [] && c.pump.msgs[0] == MessagePump.Quit(code)
    ensures var (r, outcome) := LoopStep(c, now, bodies);
            && outcome == Exit && r.pump.code == code
            && r == c.(pump := c.pump.(msgs := c.pump.msgs[1..], shouldQuit := true, code := code))
  {
  }

  /** A task message that finds another message queued behind it runs no task:
      it yields to that message, and a fresh task message goes to the back. */
  lemma TaskMessageYields(c: Center, now: int, bodies: Bodies)
    requires Consistent(c) && !c.pump.shouldQuit
    requires |c.pump.msgs| >= 2
    requires c.pump.msgs[0] == MessagePump.HaveTask && c.pump.msgs[1] == MessagePump.Other
    ensures var (r, outcome) := LoopStep(c, now, bodies);
            && outcome == Again
            && r.tasks == c.tasks && r.executed == c.executed
            && r.pump.msgs == c.pump.msgs[2..] + [MessagePump.HaveTask]
            && r.pump.haveTask
  {
    var rest := c.pump.msgs[1..];
    assert c.pump.msgs == [MessagePump.HaveTask] + rest;
    assert MessagePump.Pending(c.pump.(msgs := rest), MessagePump.HaveTask) == 0;
  }

  /** A delayed post from a thread other than the loop's while no timer is
      armed: `have_delay_task_` is set with no timer behind it.  The invariant
      is broken, no timer message can ever arrive, and every later delayed
      post, from whichever thread, is debounced into nothing. */
  lemma ForeignDelayPostStrandsTimer(c: Center, task: TaskId, delay: int, now: int,
                                     task2: Option<TaskId>, delay2: int, now2: int)
    requires Consistent(c) && c.state != Stoped && !c.pump.haveDelayTask
    ensures var r := PostDelayTaskFromOtherThread(c, Some(task), delay, now).0;
            && PendingTask(task, now, delay) in r.delayed
            && r.pump.haveDelayTask && r.pump.timer == MessagePump.Disarmed
            && !Consistent(r)
            && MessagePump.DeliverTimer(r.pump) == r.pump
            && PostDelayTask(r, task2, delay2, now2).0.pump == r.pump
            && PostDelayTaskFromOtherThread(r, task2, delay2, now2).0.pump == r.pump
  {
  }

  /** `Quit` from a thread other than the loop's does not end the loop where
      the same call on the loop's thread does: with nothing else queued, the
      next pass blocks instead of exiting. */
  lemma ForeignQuitDoesNotEndLoop(c: Center, code: int, now: int, bodies: Bodies)
    requires Consistent(c) && c.state == Running && c.pump.msgs == [] && !c.pump.shouldQuit
    ensures LoopStep(QuitFromOtherThread(c, code).0, now, bodies) == (c, Block)
    ensures var (r, outcome) := LoopStep(Quit(c, code).0, now, bodies);
            outcome == Exit && r.pump.code == code
  {
  }

  /** A delayed task posted with delay 0 whose timer fires before the tick
      count has moved on is not run, and `DoDelayTask` reports no further work
      because the stored delay is not positive: the timer stays disarmed with
      the task still queued, and only a later `PostDelayTask` re-arms it. */
  lemma ZeroDelayTaskStranded()
    ensures var c := PostDelayTask(Started(), Some(7), 0, 5).0;
            var fired := c.(pump := MessagePump.DeliverTimer(c.pump));
            var r := LoopStep(fired, 5, map[]).0;
            && r.delayed == c.delayed != []
            && r.executed == []
            && !r.pump.haveDelayTask && r.pump.timer == MessagePump.Disarmed
            && r.pump.msgs == []
            && MessagePump.DeliverTimer(r.pump) == r.pump
  {
    var c := PostDelayTask(Started(), Some(7), 0, 5).0;
    assert c.delayed == [PendingTask(7, 5, 0)];
    assert c.pump.timer == MessagePump.Armed(0);
    var fired := c.(pump := MessagePump.DeliverTimer(c.pump));
    assert fired.pump.msgs == [MessagePump.Timer];
    assert Top(c.delayed) == PendingTask(7, 5, 0);
    LoneTimerMessageNothingDue(fired, 5, map[]);
  }

  /** A timer message alone in the queue while nothing is overdue and the
      stored delay of `top()` is not positive: the pass only disarms the timer. */
  lemma LoneTimerMessageNothingDue(c: Center, now: int, bodies: Bodies)
    requires c.pump.msgs == [MessagePump.Timer]
    requires !TopOverdue(c.delayed, now) && GetNextDelayTime(c.delayed) <= 0
    ensures LoopStep(c, now, bodies).0
            == c.(pump := MessagePump.StopTimer(c.pump).(msgs := []))
  {
    var rest := c.(pump := c.pump.(msgs := []));
    assert ProcessNextWindowMessage(c, now, bodies) == ProcessWindowMessage(rest, MessagePump.Timer, now, bodies);
    var stopped := rest.(pump := MessagePump.StopTimer(rest.pump));
    assert DoDelayTask(stopped, now, bodies) == (stopped, None);
  }


  /** A task message alone in the queue runs exactly the front task: the
      pass blocks afterwards unless the task quit, and a task message is
      queued again exactly when tasks remain, behind any quit message the task
      posted. */
  lemma LoneTaskMessageRunsFront(s: Center, now: int, bodies: Bodies)
    requires s.pump.msgs == [MessagePump.HaveTask] && s.pump.haveTask
    requires s.tasks != [] && !s.pump.shouldQuit && s.state == Running
    ensures var (r, outcome) := LoopStep(s, now, bodies);
            var id := s.tasks[0].task;
            var quits := if id in bodies then [MessagePump.Quit(bodies[id])] else [];
            && r.executed == s.executed + [id] && r.destroyed == s.destroyed + [id]
            && r.tasks == s.tasks[1..] && r.delayed == s.delayed && r.state == s.state
            && r.pump.msgs == quits + (if r.tasks != [] then [MessagePump.HaveTask] else [])
            && r.pump.haveTask == (r.tasks != [])
            && !r.pump.shouldQuit && r.pump.code == s.pump.code
            && outcome == Block
  {
    var id := s.tasks[0].task;
    var popped := s.(pump := s.pump.(msgs := [], haveTask := false));
    assert ProcessNextWindowMessage(s, now, bodies) == ProcessReplaceMessage(popped, MessagePump.HaveTask, now, bodies);
    var (done, more) := DoTask(popped, bodies);
    assert done.pump.msgs == if id in bodies then [MessagePump.Quit(bodies[id])] else [];
  }

  /** One demo pass over a front task that does not quit while others
      remain: the task runs and the task message is queued again. */
  lemma PlainFrontTaskStep(s: Center, id: TaskId, rest: seq<TaskId>, bodies: Bodies)
    requires Ids(s.tasks) == [id] + rest && rest != [] && id !in bodies
    requires s.pump.msgs == [MessagePump.HaveTask] && s.pump.haveTask
    requires !s.pump.shouldQuit && s.state == Running
    ensures var (r, outcome) := LoopStep(s, 0, bodies);
            && outcome == Block && Ids(r.tasks) == rest
            && r.executed == s.executed + [id] && r.destroyed == s.destroyed + [id]
            && r.pump.msgs == [MessagePump.HaveTask] && r.pump.haveTask
            && !r.pump.shouldQuit && r.state == Running
  {
    IdsAt(s.tasks, 0);
    assert Ids(s.tasks) == [s.tasks[0].task] + Ids(s.tasks[1..]);
    assert Ids(s.tasks[1..]) == Ids(s.tasks)[1..] == ([id] + rest)[1..] == rest;
    LoneTaskMessageRunsFront(s, 0, bodies);
  }

  /** One demo pass over the last task, which calls `Quit(code)`: the task
      runs and only the quit message is left. */
  lemma QuittingLastTaskStep(s: Center, id: TaskId, bodies: Bodies)
    requires Ids(s.tasks) == [id] && id in bodies
    requires s.pump.msgs == [MessagePump.HaveTask] && s.pump.haveTask
    requires !s.pump.shouldQuit && s.state == Running
    ensures var (r, outcome) := LoopStep(s, 0, bodies);
            && outcome == Block && r.tasks == []
            && r.executed == s.executed + [id] && r.destroyed == s.destroyed + [id]
            && r.pump.msgs == [MessagePump.Quit(bodies[id])]
  {
    IdsAt(s.tasks, 0);
    assert |s.tasks| == 1;
    LoneTaskMessageRunsFront(s, 0, bodies);
  }

  /** The demo's loop state before a pass: `pending` still queued, `done`
      already run and deleted, and the task message queued alone. */
  ghost predicate DemoReady(s: Center, pending: seq<TaskId>, done: seq<TaskId>)
  {
    && Ids(s.tasks) == pending && s.executed == done && s.destroyed == done
    && s.pump.msgs == [MessagePump.HaveTask] && s.pump.haveTask
    && !s.pump.shouldQuit && s.state == Running && Consistent(s)
  }

  /** The last two passes of the demo: task 3 runs and quits, then the quit
      message ends the loop. */
  lemma DemoLastTask(s: Center)
    requires DemoReady(s, [3], [1, 2])
    ensures var e := Iterate(0);
            var (r, ended) := RunLoop(s, [e, e], map[3 := 3]);
            && ended && r.pump.code == 3
            && r.executed == [1, 2, 3] && r.destroyed == [1, 2, 3] && r.tasks == []
  {
    var bodies: Bodies := map[3 := 3];
    QuittingLastTaskStep(s, 3, bodies);
    var s1 := LoopStep(s, 0, bodies).0;
    QuitMessageEndsLoop(s1, 3, 0, bodies);
    IterateStep(s, 0, [Iterate(0)], bodies);
    IterateStep(s1, 0, [], bodies);
  }

  /** The demo from its second pass: task 2 runs, then the last two passes. */
  lemma DemoSecondTask(s: Center)
    requires DemoReady(s, [2, 3], [1])
    ensures var e := Iterate(0);
            var (r, ended) := RunLoop(s, [e, e, e], map[3 := 3]);
            && ended && r.pump.code == 3
            && r.executed == [1, 2, 3] && r.destroyed == [1, 2, 3] && r.tasks == []
  {
    var bodies: Bodies := map[3 := 3];
    PlainFrontTaskStep(s, 2, [3], bodies);
    DemoLastTask(LoopStep(s, 0, bodies).0);
    IterateStep(s, 0, [Iterate(0), Iterate(0)], bodies);
  }

  /** The loop part of the demo: three queued tasks, the third calling
      `Quit(3)`, and one task message queued. */
  lemma DemoLoop(s0: Center)
    requires DemoReady(s0, [1, 2, 3], [])
    ensures var e := Iterate(0);
            var (r, ended) := RunLoop(s0, [e, e, e, e], map[3 := 3]);
            && ended && r.pump.code == 3
            && r.executed == [1, 2, 3] && r.destroyed == [1, 2, 3] && r.tasks == []
  {
    var bodies: Bodies := map[3 := 3];
    PlainFrontTaskStep(s0, 1, [2, 3], bodies);
    DemoSecondTask(LoopStep(s0, 0, bodies).0);
    IterateStep(s0, 0, [Iterate(0), Iterate(0), Iterate(0)], bodies);
  }

  /** `RunLoop` over a schedule that starts with a pass of the loop: that pass,
      and then the rest of the schedule unless the pass left the loop. */
  lemma IterateStep(c: Center, now: int, rest: seq<Event>, bodies: Bodies)
    requires Consistent(c)
    ensures var (c1, outcome) := LoopStep(c, now, bodies);
            RunLoop(c, [Iterate(now)] + rest, bodies)
            == if outcome == Exit then (c1, true) else RunLoop(c1, rest, bodies)
  {
    DebounceBetweenSteps(c);
    assert ([Iterate(now)] + rest)[1..] == rest;
  }

  /** The demo: three tasks posted before `Run`, the third calling `Quit(3)`;
      four passes of the loop run them in order and `Run` returns 3. */
  lemma DemoRunReturnsQuitCode()
    ensures var c := PostAll(Init(), [1, 2, 3], 0);
            var (r, code) := Run(c, [Iterate(0), Iterate(0), Iterate(0), Iterate(0)], map[3 := 3]);
            && code == Some(3)
            && r.state == Stoped
            && r.executed == [1, 2, 3] && r.destroyed == [1, 2, 3]
            && r.tasks == []
  {
    var c := PostAll(Init(), [1, 2, 3], 0);
    PostAllAppends(Init(), [1, 2, 3], 0);
    var s0 := c.(state := Running, pump := MessagePump.BeginRun(c.pump));
    DemoLoop(s0);
  }
}

=== FILE: scoped_ptr.dfy ===
/** The single-owner pointer wrappers `scoped_ptr` and `scoped_array`.
    A wrapper holds at most one object (`None` is the null pointer).
    `delete` / `delete[]` is observable only through the log of objects it
    destroyed, so an ownership bug shows up as an object in the log twice or
    a held object that is already in the log. The two wrappers differ only
    in `delete` versus `delete[]` and in their accessors, so one record
    models both. */
module Scoped {
  import opened Wrappers

  datatype Owner<T> = Owner(ptr: Option<T>, destroyed: seq<T>)

  /** The objects destroyed by deleting `p`: none for the null pointer. */
  function Deleting<T>(p: Option<T>): (d: seq<T>)
    ensures |d| <= 1
    ensures p.None? <==> d == []
    ensures p.Some? ==> d == [p.value]
  {
    if p.Some? then [p.value] else []
  }

  /** Everything this wrapper is responsible for: what it holds and what
      it has destroyed. */
  function Accounted<T>(o: Owner<T>): multiset<T>
  {
    multiset(Deleting(o.ptr)) + multiset(o.destroyed)
  }

  /** No object destroyed twice, and the held object not already destroyed. */
  ghost predicate Sound<T>(o: Owner<T>)
  {
    && (forall i, j :: 0 <= i < j < |o.destroyed| ==> o.destroyed[i] != o.destroyed[j])
    && (o.ptr.Some? ==> o.ptr.value !in o.destroyed)
  }

  /** `p` may be handed to the wrapper: null, or an object it has not destroyed. */
  ghost predicate Fresh<T>(o: Owner<T>, p: Option<T>)
  {
    p.Some? ==> p.value !in o.destroyed
  }

  /** The constructor takes ownership of `p` and destroys nothing. */
  function Make<T>(p: Option<T>): (o: Owner<T>)
    ensures o.ptr == p && o.destroyed == []
    ensures Sound(o)
  {
    Owner(p, [])
  }

  /** The destructor deletes the held object, if any, exactly once. */
  function Destroy<T>(o: Owner<T>): (r: Owner<T>)
    ensures r.ptr.None?
    ensures o.ptr.Some? ==> r.destroyed == o.destroyed + [o.ptr.value]
    ensures o.ptr.None? ==> r.destroyed == o.destroyed
    ensures Accounted(r) == Accounted(o)
    ensures Sound(o) ==> Sound(r)
  {
    Owner(None, o.destroyed + Deleting(o.ptr))
  }

  /** `reset(p)`: a different pointer makes the wrapper delete its old object
      and hold `p`; the pointer it already holds leaves it untouched. */
  function Reset<T(==)>(o: Owner<T>, p: Option<T>): (r: Owner<T>)
    ensures r.ptr == p
    ensures o.ptr == p ==> r == o
    ensures o.ptr != p ==> r.destroyed == o.destroyed + Deleting(o.ptr)
    ensures o.ptr != p ==> Accounted(r) == Accounted(o) + multiset(Deleting(p))
    ensures Sound(o) && Fresh(o, p) ==> Sound(r)
  {
    if o.ptr != p then Owner(p, o.destroyed + Deleting(o.ptr)) else o
  }

  /** `get`, `->`, `*`: the held pointer; nothing changes hands. */
  function Get<T>(o: Owner<T>): (p: Option<T>)
    ensures p == o.ptr
    ensures Sound(o) && p.Some? ==> p.value !in o.destroyed
    ensures multiset(Deleting(p)) <= Accounted(o)
  {
    o.ptr
  }

  /** `swap`: the two wrappers exchange their held pointers. */
  function Swap<T>(a: Owner<T>, b: Owner<T>): (r: (Owner<T>, Owner<T>))
    ensures r.0.ptr == b.ptr && r.1.ptr == a.ptr
    ensures r.0.destroyed == a.destroyed && r.1.destroyed == b.destroyed
    ensures Accounted(r.0) + Accounted(r.1) == Accounted(a) + Accounted(b)
  {
    (a.(ptr := b.ptr), b.(ptr := a.ptr))
  }

  /** `release`: hand the held pointer to the caller, destroying nothing. */
  function Release<T>(o: Owner<T>): (r: (Owner<T>, Option<T>))
    ensures r.0.ptr.None? && r.1 == o.ptr
    ensures r.0.destroyed == o.destroyed
    ensures Accounted(r.0) + multiset(Deleting(r.1)) == Accounted(o)
    ensures Sound(o) ==> Sound(r.0)
  {
    (o.(ptr := None), o.ptr)
  }

  /** `accept`: delete the held object, if any, and leave the wrapper null so
      that the slot it returns can be filled. */
  function Accept<T>(o: Owner<T>): (r: Owner<T>)
    ensures r.ptr.None?
    ensures r.destroyed == o.destroyed + Deleting(o.ptr)
    ensures Accounted(r) == Accounted(o)
    ensures Sound(o) ==> Sound(r)
  {
    Owner(None, o.destroyed + Deleting(o.ptr))
  }

  /** A write of `p` through the slot `accept` or `use` returns: the slot is
      overwritten and nothing is deleted. */
  function WriteSlot<T>(o: Owner<T>, p: Option<T>): (r: Owner<T>)
    ensures r.ptr == p && r.destroyed == o.destroyed
    ensures Accounted(r) + multiset(Deleting(o.ptr)) == Accounted(o) + multiset(Deleting(p))
  {
    o.(ptr := p)
  }

  /** Filling the slot `accept` returned takes ownership of `p` and loses
      nothing: the old object is destroyed first. */
  lemma AcceptThenWrite<T>(o: Owner<T>, p: Option<T>)
    ensures var r := WriteSlot(Accept(o), p);
            && r.ptr == p
            && Accounted(r) == Accounted(o) + multiset(Deleting(p))
            && (Sound(o) && Fresh(Accept(o), p) ==> Sound(r))
  {
  }

  /** Writing the object `accept` just deleted back into its slot leaves the
      wrapper holding a destroyed object, which its destructor deletes again. */
  lemma AcceptSameObjectDangles<T>(o: Owner<T>)
    requires o.ptr.Some?
    ensures var r := WriteSlot(Accept(o), o.ptr);
            && !Sound(r)
            && multiset(Destroy(r).destroyed)[o.ptr.value] >= 2
  {
    var r := WriteSlot(Accept(o), o.ptr);
    assert r.destroyed == o.destroyed + [o.ptr.value];
    assert Destroy(r).destroyed == o.destroyed + [o.ptr.value] + [o.ptr.value];
  }

  /** Filling the slot `use` returns while an object is held leaks that
      object: it is neither held nor destroyed afterwards. */
  lemma UseOverwriteLeaks<T>(o: Owner<T>, p: Option<T>)
    requires o.ptr.Some? && o.ptr != p && Sound(o)
    ensures var r := WriteSlot(o, p);
            && o.ptr.value !in r.destroyed
            && o.ptr.value !in Deleting(r.ptr)
  {
  }

  /** Resetting twice to the same pointer is resetting once: the guard keeps
      `reset(get())` from deleting the object the wrapper goes on holding. */
  lemma ResetIdempotent<T>(o: Owner<T>, p: Option<T>)
    ensures Reset(Reset(o, p), p) == Reset(o, p)
    ensures Reset(o, Get(o)) == o
  {
  }

  /** Swapping twice restores both wrappers. */
  lemma SwapInvolution<T>(a: Owner<T>, b: Owner<T>)
    ensures var (a1, b1) := Swap(a, b); Swap(a1, b1) == (a, b)
  {
  }

  /** What the owner may be asked to do over its lifetime. */
  datatype Op<T> = ResetTo(p: Option<T>) | ReleaseIt | AcceptInto(p: Option<T>)

  function Apply<T(==)>(o: Owner<T>, op: Op<T>): Owner<T>
  {
    match op
    case ResetTo(p) => Reset(o, p)
    case ReleaseIt => Release(o).0
    case AcceptInto(p) => WriteSlot(Accept(o), p)
  }

  /** Apply `ops` in order, then run the destructor. */
  function Lifetime<T(==)>(o: Owner<T>, ops: seq<Op<T>>): (r: Owner<T>)
    ensures r.ptr.None?
    decreases |ops|
  {
    if ops == [] then Destroy(o) else Lifetime(Apply(o, ops[0]), ops[1..])
  }

  /** Every pointer `ops` hands over is fresh when it is handed over. */
  ghost predicate FreshOps<T>(o: Owner<T>, ops: seq<Op<T>>)
    decreases |ops|
  {
    ops == [] ||
    (&& (ops[0].ResetTo? ==> Fresh(o, ops[0].p))
     && (ops[0].AcceptInto? ==> Fresh(Accept(o), ops[0].p))
     && FreshOps(Apply(o, ops[0]), ops[1..]))
  }

  /** Single ownership: if each object is handed over fresh, then through any
      sequence of `reset`, `release` and `accept` followed by the destructor
      no object is destroyed twice. */
  lemma {:induction false} LifetimeSound<T>(o: Owner<T>, ops: seq<Op<T>>)
    requires Sound(o) && FreshOps(o, ops)
    ensures Sound(Lifetime(o, ops))
    decreases |ops|
  {
    if ops != [] {
      var a := Apply(o, ops[0]);
      if ops[0].AcceptInto? {
        AcceptThenWrite(o, ops[0].p);
      }
      assert Sound(a);
      LifetimeSound(a, ops[1..]);
    }
  }

  /** Without `release` the wrapper loses nothing: what it started with and
      every object handed to it by `reset` or through `accept` are all
      destroyed by the end of its life. */
  lemma {:induction false} LifetimeDestroysAll<T>(o: Owner<T>, ops: seq<Op<T>>)
    requires forall op :: op in ops ==> !op.ReleaseIt?
    ensures Accounted(o) <= multiset(Lifetime(o, ops).destroyed)
    ensures forall i | 0 <= i < |ops| && !ops[i].ReleaseIt? && ops[i].p.Some? ::
              ops[i].p.value in Lifetime(o, ops).destroyed
    decreases |ops|
  {
    if ops != [] {
      var a := Apply(o, ops[0]);
      ApplyKeepsAccounted(o, ops[0]);
      assert forall op :: op in ops[1..] ==> op in ops;
      LifetimeDestroysAll(a, ops[1..]);
      assert Lifetime(o, ops) == Lifetime(a, ops[1..]);
      forall i | 0 <= i < |ops| && !ops[i].ReleaseIt? && ops[i].p.Some?
        ensures ops[i].p.value in Lifetime(o, ops).destroyed
      {
        if i == 0 {
          assert a.ptr == ops[0].p;
          assert ops[0].p.value in Accounted(a);
        } else {
          assert ops[i] == ops[1..][i - 1];
        }
      }
    }
  }

  /** Every step but `release` keeps what the wrapper is responsible for. */
  lemma ApplyKeepsAccounted<T>(o: Owner<T>, op: Op<T>)
    requires !op.ReleaseIt?
    ensures Accounted(o) <= Accounted(Apply(o, op))
  {
    if op.AcceptInto? {
      AcceptThenWrite(o, op.p);
    }
  }
}

=== FILE: task_center.dfy ===
/** The task center (`TaskCenter` in base/task_center.h and .hpp) as a pure
    state machine.  Each call is one atomic step: a whole `PostTask` is one
    step, though the source takes the lock and the interlocked flag in
    separate steps, and threads cannot interleave inside it.  Tasks are
    opaque ids: running one appends it to `executed`, deleting it appends it to
    `destroyed`. */
module TaskCenter {
  import opened Wrappers
  import opened PendingTasks
  import MessagePump

  /** `run_state_`: it only ever moves forward, Default, Running, Stoped. */
  datatype RunState = Default | Running | Stoped

  /** The `LONG` stored for each state. */
  function StateValue(s: RunState): (v: int)
    ensures 0 <= v <= 2
    ensures v == 0 <==> s == Default
    ensures v == 1 <==> s == Running
    ensures v == 2 <==> s == Stoped
  {
    match s
    case Default => 0
    case Running => 1
    case Stoped => 2
  }

  /** The task bodies that call back into the center: a task in this map calls
      `Quit` with the mapped code when it runs (as the demo's third task does).
      Every other body is modelled as having no effect the center can see; a
      body that posts to the center is not modelled. */
  type Bodies = map<TaskId, int>

  datatype Center = Center(
    tasks: seq<PendingTask>,    // `task_queue_`, front first
    delayed: seq<PendingTask>,  // `delay_task_queue_`, in insertion order
    state: RunState,            // `run_state_`
    pump: MessagePump.Pump,     // `pump_`
    executed: seq<TaskId>,      // every task run, in order
    destroyed: seq<TaskId>      // every task deleted, in order
  )

  /** The pump's debounce invariant, and no lost wake-up, i.e. a non-empty
      immediate queue always has a task message on its way to the loop.  Every
      event of the loop's schedule keeps it; `PostDelayTaskFromOtherThread`
      breaks it. */
  predicate Consistent(c: Center)
  {
    && MessagePump.Signalled(c.pump)
    && (c.tasks != [] ==> c.pump.haveTask)
  }

  /** The constructor: state Default, both queues empty, a fresh pump. */
  function Init(): (c: Center)
    ensures c.state == Default && StateValue(c.state) == 0
    ensures c.tasks == [] && c.delayed == []
    ensures c.executed == [] && c.destroyed == []
    ensures !c.pump.haveTask && !c.pump.haveDelayTask && c.pump.msgs == []
    ensures Consistent(c)
  {
    Center([], [], Default, MessagePump.Init(), [], [])
  }

  /** A new center just after `Run` has begun: state Running, both queues
      empty, the pump's quit state reset.  The examples start here, since the
      loop only runs inside `Run`. */
  function Started(): (c: Center)
    ensures c.state == Running && c.tasks == [] && c.delayed == []
    ensures c.executed == [] && c.destroyed == [] && c.pump.msgs == []
    ensures !c.pump.haveTask && !c.pump.haveDelayTask && !c.pump.shouldQuit
    ensures Consistent(c)
  {
    Init().(state := Running, pump := MessagePump.BeginRun(Init().pump))
  }

  /** `Quit`: forwards the code to the pump only while running; always true. */
  function Quit(c: Center, code: int): (r: (Center, bool))
    ensures r.1
    ensures c.state == Running ==> r.0 == c.(pump := MessagePump.PostQuit(c.pump, code))
    ensures c.state != Running ==> r.0 == c
    ensures MessagePump.AddsQuitsOnly(c.pump, r.0.pump)
    ensures Consistent(c) ==> Consistent(r.0)
  {
    if c.state == Running then (c.(pump := MessagePump.PostQuit(c.pump, code)), true)
    else (c, true)
  }

  /** `AddToTaskQueue`: a null task is refused; otherwise one entry with delay 0
      posted at `now` goes to the back of the FIFO queue. */
  function AddToTaskQueue(c: Center, task: Option<TaskId>, now: int): (r: (Center, bool))
    ensures r.1 <==> task.Some?
    ensures !r.1 ==> r.0 == c
    ensures r.1 ==> && r.0 == c.(tasks := r.0.tasks)
                    && |r.0.tasks| == |c.tasks| + 1
                    && r.0.tasks[..|c.tasks|] == c.tasks
                    && var p := r.0.tasks[|c.tasks|];
                       p.task == task.value && p.delay == 0 && Due(p) == now
  {
    if task.None? then (c, false)
    else (c.(tasks := c.tasks + [NewPending(task.value, 0, now)]), true)
  }

  /** `AddToDelayTaskQueue`: a null task is refused; otherwise exactly one entry
      due at `now + delay` joins the delay queue. */
  function AddToDelayTaskQueue(c: Center, task: Option<TaskId>, delay: int, now: int): (r: (Center, bool))
    ensures r.1 <==> task.Some?
    ensures !r.1 ==> r.0 == c
    ensures r.1 ==> && r.0 == c.(delayed := r.0.delayed)
                    && multiset(r.0.delayed) == multiset(c.delayed) + multiset{PendingTask(task.value, now, delay)}
  {
    if task.None? then (c, false)
    else (c.(delayed := c.delayed + [NewPending(task.value, delay, now)]), true)
  }

  /** `PostTask`: refused once stopped or for a null task, leaving everything as
      it was; otherwise the task joins the back of the immediate queue and the
      pump is asked for a task message. */
  function PostTask(c: Center, task: Option<TaskId>, now: int): (r: (Center, bool))
    ensures r.1 <==> c.state != Stoped && task.Some?
    ensures !r.1 ==> r.0 == c
    ensures r.1 ==> && Ids(r.0.tasks) == Ids(c.tasks) + [task.value]
                    && r.0.tasks == c.tasks + [PendingTask(task.value, now, 0)]
                    && r.0.pump == MessagePump.ScheduleTask(c.pump).0
                    && r.0 == c.(tasks := r.0.tasks, pump := r.0.pump)
    ensures Consistent(c) ==> Consistent(r.0)
  {
    if c.state == Stoped then (c, false)
    else
      var (added, ok) := AddToTaskQueue(c, task, now);
      if ok then
        IdsAppend(c.tasks, [added.tasks[|c.tasks|]]);
        assert added.tasks == c.tasks + [added.tasks[|c.tasks|]];
        (added.(pump := MessagePump.ScheduleTask(added.pump).0), true)
      else (c, false)
  }

  /** `PostDelayTask`: refused once stopped or for a null task; otherwise one
      entry due at `now + delay` joins the delay queue and the pump is asked to
      arm its timer.  The source calls `ScheduleDelayTask` without the delay its
      declaration requires; the model passes the posted delay. */
  function PostDelayTask(c: Center, task: Option<TaskId>, delay: int, now: int): (r: (Center, bool))
    ensures r.1 <==> c.state != Stoped && task.Some?
    ensures !r.1 ==> r.0 == c
    ensures r.1 ==> && multiset(r.0.delayed) == multiset(c.delayed) + multiset{PendingTask(task.value, now, delay)}
                    && r.0.pump == MessagePump.ScheduleDelayTask(c.pump, delay).0
                    && r.0 == c.(delayed := r.0.delayed, pump := r.0.pump)
    ensures Consistent(c) ==> Consistent(r.0)
  {
    if c.state == Stoped then (c, false)
    else
      var (added, ok) := AddToDelayTaskQueue(c, task, delay, now);
      if ok then (added.(pump := MessagePump.ScheduleDelayTask(added.pump, delay).0), true)
      else (c, false)
  }

  /** `PostDelayTask` called on a thread other than the loop's: the entry is
      queued and `have_delay_task_` is set, but no timer is armed. */
  function PostDelayTaskFromOtherThread(c: Center, task: Option<TaskId>, delay: int, now: int): (r: (Center, bool))
    ensures r.1 <==> c.state != Stoped && task.Some?
    ensures !r.1 ==> r.0 == c
    ensures r.1 ==> && multiset(r.0.delayed) == multiset(c.delayed) + multiset{PendingTask(task.value, now, delay)}
                    && r.0.pump == MessagePump.ScheduleDelayTaskFromOtherThread(c.pump).0
                    && r.0.pump.timer == c.pump.timer
                    && r.0 == c.(delayed := r.0.delayed, pump := r.0.pump)
  {
    if c.state == Stoped then (c, false)
    else
      var (added, ok) := AddToDelayTaskQueue(c, task, delay, now);
      if ok then (added.(pump := MessagePump.ScheduleDelayTaskFromOtherThread(added.pump).0), true)
      else (c, false)
  }

  /** `Quit` called on a thread other than the loop's: `PostQuitMessage`
      queues `WM_QUIT` on the calling thread, so neither the center nor its
      pump sees it; the result is still true. */
  function QuitFromOtherThread(c: Center, code: int): (r: (Center, bool))
    ensures r.1 && r.0 == c
  {
    (c, true)
  }

  /** The latest deadline in the delay queue has passed (strictly). */
  predicate TopOverdue(q: seq<PendingTask>, now: int)
  {
    q != [] && Due(Top(q)) < now
  }

  /** Because `top()` carries the latest deadline, it is overdue exactly when
      every entry is. */
  lemma TopOverdueIffAllOverdue(q: seq<PendingTask>, now: int)
    ensures TopOverdue(q, now) <==> q != [] && forall p :: p in q ==> Due(p) < now
  {
  }

  /** `GetNextDelayTask`: pops and hands out `top()` only when its due time is
      strictly before `now`; an empty queue or a `top()` not yet overdue yields
      null and leaves the queue as it was. */
  function GetNextDelayTask(q: seq<PendingTask>, now: int): (r: (seq<PendingTask>, Option<TaskId>))
    ensures r.1.Some? <==> TopOverdue(q, now)
    ensures r.1.None? ==> r.0 == q
    ensures r.1.Some? ==> && r.1.value == Top(q).task
                          && multiset(r.0) + multiset{Top(q)} == multiset(q)
                          && forall p :: p in q ==> Due(p) <= Due(Top(q)) < now
  {
    if q == [] then (q, None)
    else
      var top := Top(q);
      if Due(top) < now then (PopTop(q), Some(top.task)) else (q, None)
  }

  /** `GetNextDelayTime`: the stored delay of `top()` (not the time left until
      it is due), or 0 for an empty queue. */
  function GetNextDelayTime(q: seq<PendingTask>): (d: int)
    ensures q == [] ==> d == 0
    ensures q != [] ==> exists p :: p in q && d == p.delay
                                    && (forall o :: o in q ==> Due(o) <= Due(p))
  {
    if q == [] then 0 else Top(q).delay
  }

  /** The loop of `DiscardTasks`: pop the front and delete it until empty. */
  function DiscardFront(q: seq<PendingTask>, destroyed: seq<TaskId>): (r: seq<TaskId>)
    ensures r == destroyed + Ids(q)
    decreases |q|
  {
    if q == [] then destroyed
    else
      IdsAppend([q[0]], q[1..]);
      assert q == [q[0]] + q[1..];
      DiscardFront(q[1..], destroyed + [q[0].task])
  }

  /** The loop of `DiscardDelayTasks`: pop `top()` and delete it until empty. */
  function DiscardByTop(q: seq<PendingTask>, destroyed: seq<TaskId>): (r: seq<TaskId>)
    ensures r == destroyed + Ids(DrainOrder(q))
    decreases |q|
  {
    if q == [] then destroyed
    else
      var r := DiscardByTop(PopTop(q), destroyed + [Top(q).task]);
      DiscardByTopStep(q, destroyed);
      r
  }

  lemma DiscardByTopStep(q: seq<PendingTask>, destroyed: seq<TaskId>)
    requires |q| > 0
    ensures destroyed + [Top(q).task] + Ids(DrainOrder(PopTop(q))) == destroyed + Ids(DrainOrder(q))
  {
    DrainOrderIdsStep(q);
    AppendStep(destroyed, Top(q).task, Ids(DrainOrder(PopTop(q))), Ids(DrainOrder(q)));
  }


  /** `DiscardTasks`: refused while running; otherwise every immediate entry is
      deleted, front first, without being run. */
  function DiscardTasks(c: Center): (r: (Center, bool))
    ensures c.state == Running ==> r == (c, false)
    ensures c.state != Running ==> && r.1
                                   && r.0 == c.(tasks := [], destroyed := r.0.destroyed)
                                   && r.0.destroyed == c.destroyed + Ids(c.tasks)
    ensures Consistent(c) ==> Consistent(r.0)
  {
    if c.state == Running then (c, false)
    else (c.(tasks := [], destroyed := DiscardFront(c.tasks, c.destroyed)), true)
  }

  /** `DiscardDelayTasks`: refused while running; otherwise every delayed entry
      is deleted exactly once, without being run. */
  function DiscardDelayTasks(c: Center): (r: (Center, bool))
    ensures c.state == Running ==> r == (c, false)
    ensures c.state != Running ==> && r.1
                                   && r.0 == c.(delayed := [], destroyed := r.0.destroyed)
                                   && r.0.destroyed == c.destroyed + Ids(DrainOrder(c.delayed))
                                   && multiset(r.0.destroyed) == multiset(c.destroyed) + multiset(Ids(c.delayed))
    ensures Consistent(c) ==> Consistent(r.0)
  {
    if c.state == Running then (c, false)
    else
      DrainOrderPermutes(c.delayed);
      (c.(delayed := [], destroyed := DiscardByTop(c.delayed, c.destroyed)), true)
  }

  /** The destructor: both discards.  Once the center is not running, every
      task still queued is deleted exactly once and none is run. */
  function Destroy(c: Center): (r: Center)
    ensures c.state == Running ==> r == c
    ensures c.state != Running ==> && r.tasks == [] && r.delayed == []
                                   && r == c.(tasks := [], delayed := [], destroyed := r.destroyed)
                                   && multiset(r.destroyed)
                                      == multiset(c.destroyed) + multiset(Ids(c.tasks)) + multiset(Ids(c.delayed))
  {
    var c1 := DiscardTasks(c).0;
    var c2 := DiscardDelayTasks(c1).0;
    c2
  }

  /** `RunTask`: run the task once, then delete it.  A body that calls `Quit`
      does so while it runs. */
  function RunTask(c: Center, id: TaskId, bodies: Bodies): (r: Center)
    ensures r.executed == c.executed + [id] && r.destroyed == c.destroyed + [id]
    ensures r.tasks == c.tasks && r.delayed == c.delayed && r.state == c.state
    ensures MessagePump.AddsQuitsOnly(c.pump, r.pump)
    ensures id !in bodies ==> r.pump == c.pump
  {
    var ran := c.(executed := c.executed + [id]);
    var after := if id in bodies then Quit(ran, bodies[id]).0 else ran;
    after.(destroyed := after.destroyed + [id])
  }

  /** `DoTask`: on an empty queue, false and no change; otherwise exactly the
      front entry is removed, run once and deleted, and the result says whether
      entries remain. */
  function DoTask(c: Center, bodies: Bodies): (r: (Center, bool))
    ensures c.tasks == [] ==> r == (c, false)
    ensures c.tasks != [] ==> && r.0.tasks == c.tasks[1..]
                              && r.0.executed == c.executed + [c.tasks[0].task]
                              && r.0.destroyed == c.destroyed + [c.tasks[0].task]
                              && r.0.delayed == c.delayed && r.0.state == c.state
    ensures MessagePump.AddsQuitsOnly(c.pump, r.0.pump)
    ensures r.1 <==> r.0.tasks != []
  {
    if c.tasks == [] then
      assert c.pump.msgs[..|c.pump.msgs|] == c.pump.msgs;
      (c, false)
    else
      var front := c.tasks[0];
      var c1 := RunTask(c.(tasks := c.tasks[1..]), front.task, bodies);
      (c1, c1.tasks != [])
  }

  /** Popping an overdue `top()` leaves a queue whose `top()`, if any, is
      overdue too. */
  lemma PopKeepsOverdue(q: seq<PendingTask>, now: int)
    requires TopOverdue(q, now)
    ensures PopTop(q) != [] ==> TopOverdue(PopTop(q), now)
  {
    if PopTop(q) != [] {
      var t := Top(PopTop(q));
      assert t in multiset(PopTop(q));
      assert t in multiset(q);
    }
  }

  /** The loop of `DoDelayTask`: run what `GetNextDelayTask` hands out until it
      yields null.  With `top()` the latest deadline this is all or nothing:
      when the latest deadline has passed every entry runs, latest first, and
      otherwise none does, however overdue the others are. */
  function DrainDue(c: Center, now: int, bodies: Bodies): (r: Center)
    ensures !TopOverdue(c.delayed, now) ==> r == c
    ensures TopOverdue(c.delayed, now) ==>
              && r.delayed == []
              && r.executed == c.executed + Ids(DrainOrder(c.delayed))
              && r.destroyed == c.destroyed + Ids(DrainOrder(c.delayed))
              && r.tasks == c.tasks && r.state == c.state
              && MessagePump.AddsQuitsOnly(c.pump, r.pump)
    decreases |c.delayed|
  {
    var (rest, next) := GetNextDelayTask(c.delayed, now);
    if next.None? then c
    else
      var c1 := RunTask(c.(delayed := rest), next.value, bodies);
      var r := DrainDue(c1, now, bodies);
      PopKeepsOverdue(c.delayed, now);
      DrainOrderIdsStep(c.delayed);
      MessagePump.AddsQuitsOnlyReflexive(c1.pump);
      DrainDueStep(c, c1, r, next.value, Ids(DrainOrder(c1.delayed)), Ids(DrainOrder(c.delayed)));
      r
  }

  lemma AppendStep<X>(log: seq<X>, t: X, rest: seq<X>, whole: seq<X>)
    requires whole == [t] + rest
    ensures log + [t] + rest == log + whole
  {
  }

  /** The inductive step of `DrainDue`: running one task and then draining
      the rest runs and deletes that task followed by the rest. */
  lemma DrainDueStep(c: Center, c1: Center, r: Center, t: TaskId, restIds: seq<TaskId>, allIds: seq<TaskId>)
    requires allIds == [t] + restIds
    requires c1.executed == c.executed + [t] && c1.destroyed == c.destroyed + [t]
    requires c1.tasks == c.tasks && c1.state == c.state
    requires MessagePump.AddsQuitsOnly(c.pump, c1.pump)
    requires r.executed == c1.executed + restIds && r.destroyed == c1.destroyed + restIds
    requires r.tasks == c1.tasks && r.state == c1.state
    requires MessagePump.AddsQuitsOnly(c1.pump, r.pump)
    ensures r.executed == c.executed + allIds && r.destroyed == c.destroyed + allIds
    ensures r.tasks == c.tasks && r.state == c.state
    ensures MessagePump.AddsQuitsOnly(c.pump, r.pump)
  {
    AppendStep(c.executed, t, restIds, allIds);
    AppendStep(c.destroyed, t, restIds, allIds);
    MessagePump.AddsQuitsOnlyTransitive(c.pump, c1.pump, r.pump);
  }


  /** `DoDelayTask`: drain, then report the stored delay of the new `top()` as
      the next timer period, but only when it is positive. */
  function DoDelayTask(c: Center, now: int, bodies: Bodies): (r: (Center, Option<int>))
    ensures r.0 == DrainDue(c, now, bodies)
    ensures r.1.Some? <==> r.0.delayed != [] && Top(r.0.delayed).delay > 0
    ensures r.1.Some? ==> r.1.value == GetNextDelayTime(r.0.delayed) > 0
    ensures r.0.delayed != [] ==> r.0.delayed == c.delayed
  {
    var c1 := DrainDue(c, now, bodies);
    var delay := GetNextDelayTime(c1.delayed);
    if delay > 0 then (c1, Some(delay)) else (c1, None)
  }

  /** `DoIdleTask`: never has work. */
  function DoIdleTask(c: Center): (more: bool)
    ensures !more
  {
    false
  }

  // ---------------------------------------------------------------------------
  // FIFO order of the immediate queue

  /** `PostTask` each id in turn, all at tick `now`. */
  function PostAll(c: Center, ids: seq<TaskId>, now: int): (r: Center)
    ensures r.state == c.state
    ensures Consistent(c) ==> Consistent(r)
    decreases |ids|
  {
    if ids == [] then c else PostAll(PostTask(c, Some(ids[0]), now).0, ids[1..], now)
  }

  /** `DoTask` `n` times. */
  function DoTasks(c: Center, n: nat, bodies: Bodies): Center
    decreases n
  {
    if n == 0 then c else DoTasks(DoTask(c, bodies).0, n - 1, bodies)
  }

  lemma {:induction false} PostAllAppends(c: Center, ids: seq<TaskId>, now: int)
    requires c.state != Stoped
    ensures Ids(PostAll(c, ids, now).tasks) == Ids(c.tasks) + ids
    ensures PostAll(c, ids, now).executed == c.executed
    ensures PostAll(c, ids, now).pump == if ids == [] then c.pump else MessagePump.ScheduleTask(c.pump).0
    decreases |ids|
  {
    if ids != [] {
      var c1 := PostTask(c, Some(ids[0]), now).0;
      assert Ids(c1.tasks) == Ids(c.tasks) + [ids[0]] && c1.executed == c.executed;
      assert c1.pump == MessagePump.ScheduleTask(c.pump).0;
      PostAllAppends(c1, ids[1..], now);
      MessagePump.ScheduleTaskDebounces(c.pump);
      assert PostAll(c, ids, now) == PostAll(c1, ids[1..], now);
      AppendStep(Ids(c.tasks), ids[0], ids[1..], ids);
    }
  }

  lemma {:induction false} DoTasksRunFront(c: Center, n: nat, bodies: Bodies)
    requires n <= |c.tasks|
    ensures DoTasks(c, n, bodies).executed == c.executed + Ids(c.tasks)[..n]
    ensures DoTasks(c, n, bodies).tasks == c.tasks[n..]
    decreases n
  {
    if n > 0 {
      var c1 := DoTask(c, bodies).0;
      DoTasksRunFront(c1, n - 1, bodies);
      assert Ids(c.tasks)[..n] == [c.tasks[0].task] + Ids(c1.tasks)[..n - 1];
    }
  }

  /** Immediate tasks run in posting order: posting `ids` and then calling
      `DoTask` until the queue is empty runs whatever was queued before, then
      exactly `ids`, in order. */
  lemma FifoOrder(c: Center, ids: seq<TaskId>, now: int, bodies: Bodies)
    requires c.state != Stoped
    ensures var d := PostAll(c, ids, now);
            && DoTasks(d, |d.tasks|, bodies).executed == c.executed + Ids(c.tasks) + ids
            && DoTasks(d, |d.tasks|, bodies).tasks == []
  {
    var d := PostAll(c, ids, now);
    PostAllAppends(c, ids, now);
    DoTasksRunAll(d, bodies);
    ConcatAssoc(c.executed, Ids(c.tasks), ids);
  }

  lemma ConcatAssoc<X>(a: seq<X>, b: seq<X>, c: seq<X>)
    ensures a + (b + c) == a + b + c
  {
  }

  /** As many `DoTask` calls as there are queued tasks run them all, in order. */
  lemma DoTasksRunAll(d: Center, bodies: Bodies)
    ensures DoTasks(d, |d.tasks|, bodies).executed == d.executed + Ids(d.tasks)
    ensures DoTasks(d, |d.tasks|, bodies).tasks == []
  {
    var n := |d.tasks|;
    DoTasksRunFront(d, n, bodies);
    assert Ids(d.tasks)[..n] == Ids(d.tasks);
    assert d.tasks[n..] == [];
  }

  /** The delay queue after posting task 1 due at 300 and task 2 due at 100,
      both at tick 0, and the order in which it drains. */
  lemma TwoDelayedPosted()
    ensures var c := PostDelayTask(PostDelayTask(Started(), Some(1), 300, 0).0, Some(2), 100, 0).0;
            && c.delayed == [PendingTask(1, 0, 300), PendingTask(2, 0, 100)]
            && c.executed == []
  {
    var c1 := PostDelayTask(Started(), Some(1), 300, 0).0;
    assert c1.delayed == [PendingTask(1, 0, 300)];
  }

  lemma TwoDelayedDrainOrder(a: PendingTask, b: PendingTask)
    requires Due(b) < Due(a)
    ensures Top([a, b]) == a
    ensures Ids(DrainOrder([a, b])) == [a.task, b.task]
  {
    assert TopIndex([b]) == 0;
    assert TopIndex([a, b]) == 0;
    assert PopTop([a, b]) == [b];
    assert DrainOrder([b]) == [b];
    assert DrainOrder([a, b]) == [a, b];
    assert Ids([a, b]) == [a.task] + Ids([b]);
  }

  /** Two delayed tasks posted at tick 0, the first due at 300 and the second
      at 100: at tick 150 the second is overdue but nothing runs, because
      `top()` is the first; after tick 300 both run, the later deadline first. */
  lemma LatestDeadlineRunsFirst()
    ensures var c := PostDelayTask(PostDelayTask(Started(), Some(1), 300, 0).0, Some(2), 100, 0).0;
            && DoDelayTask(c, 150, map[]).0 == c
            && DoDelayTask(c, 301, map[]).0.executed == [1, 2]
  {
    var c := PostDelayTask(PostDelayTask(Started(), Some(1), 300, 0).0, Some(2), 100, 0).0;
    TwoDelayedPosted();
    TwoDelayedDrainOrder(PendingTask(1, 0, 300), PendingTask(2, 0, 100));
    assert !TopOverdue(c.delayed, 150);
    assert TopOverdue(c.delayed, 301);
  }
}

=== FILE: wrappers.dfy ===
/** The nullable-pointer shape used throughout the scheduler: a `Task*` or `T*`
    that may be null is an `Option`. */
module Wrappers {

  datatype Option<+T> = None | Some(value: T)
}
